=== FILE: README.md ===
# DoublyLinkedList in Dafny

A model of the `DoublyLinkedList` class of LinkedList.py and the `Node` record
of Node.py, with proofs about it.

The list is a chain of node records. Each record holds a `value`, a `next`
link and a `prev` link. The list keeps `head`, `last`, an iteration cursor
`current`, a cached `len` and a `return_nodes` flag. The model keeps every
record the list ever created in an arena (`seq<Node>`), and links are
`Option<nat>` positions in it. Record identity is therefore the arena
position, and a removed record stays in the arena just as a Python object
stays alive while something refers to it.

Three invariants describe a list, from weakest to strongest:

- `ListState.Valid`: every link names a record of the arena. Every operation
  keeps it.
- `ListState.Forward`: following `next` from `head` for `len` steps visits
  `len` distinct records. The last of them is `last`, which has no successor.
  `Values` and `Ids` read the list's contents off this chain.
- `ListState.WellLinked`: `Forward`, and every `prev` mirrors the chain.

Python exceptions become `Outcomes.Result` values: `IndexError`, `TypeError`,
`StopIteration`, and `AttributeError` wherever the source dereferences `None`
or reads an attribute records do not have. The source's unbounded `while item
is not None` loops are walks with fuel equal to the arena size. Running out of
fuel means the links form a cycle, so the Python loop would never end; this
is reported as `NoTermination`.

Modules:

- `Nodes`: the node record and its value comparisons (Node.py).
- `Chains`: following links and the traversal loops of `get`, `count`,
  `index` and `__iter__`.
- `ListState`: the list state and its invariants.
- `ListOps`: every operation as the code is written.
- `ChainEdits`: how single link edits change the chain.
- `ListProofs`: what the as-written operations do to `Values` and which
  invariants they keep.
- `Comparisons`: the six comparison operators, both as written and
  corrected, against the lexicographic order.
- `Corrected`: `clear`, `get`, `pop`, `insert`, `index` and `__next__` as
  evidently intended. `clear`, `pop`, `insert` and `__next__` are proved to
  keep `WellLinked`; `get` and `index` change nothing.

The model follows the code wherever the code and the documented intent
differ. The differences are listed under Findings. Each one has an
as-written member that exhibits it and a corrected member that proves the
intended behaviour.

## Model

| member | source | states |
|---|---|---|
| Nodes.CompareUnwrapsOperand | Node.py:10-20 | `n < o` and `n > o` compare `n`'s value with `o`'s value when `o` is a Node, and with `o` itself otherwise |
| Nodes.LessIsConverseOfGreater | Node.py:10-20 | `n < m` holds exactly when `m > n` does |
| Nodes.CompareIgnoresLinks | Node.py:10-20 | comparisons read only `value`: changing a record's `next` or `prev` does not change them |
| Nodes.LessIsStrictOrder | Node.py:10-14 | `<` on records is irreflexive, transitive and asymmetric |
| Chains.Follow | LinkedList.py:68-72 | following `next` for `k` steps gives a linked run of exactly `k` records that starts at the given record |
| Chains.FollowOfLinked | LinkedList.py:68-72 | conversely, any linked run is what following `next` from its first record finds |
| Chains.Walk | LinkedList.py:195-203 | the walk until a `None` link visits a linked run; the run is empty exactly when it starts from `None`, and its last record has no successor |
| Chains.WalkOfChain | LinkedList.py:195-203 | on a linked run ending without a successor, the walk from its first record visits exactly that run |
| Chains.Nth | LinkedList.py:68-72 | the `get` loop either finds a record of the arena or raises `AttributeError` by stepping off the end |
| Chains.NthOfLinked | LinkedList.py:68-72 | on a linked run, the `get` loop finds the run's `i`-th record |
| Chains.CountFromCounts | LinkedList.py:74-82 | `count` ends exactly when the walk ends, and then returns how many visited records hold `x` |
| Chains.CountFrom | LinkedList.py:76-82 | the `count` loop fails only by not terminating |
| Chains.FindFrom | LinkedList.py:47-54 | the `index` scan fails only by not terminating |
| Chains.FindFromFinds | LinkedList.py:47-54 | when the walk ends, the `index` scan returns the first position holding `x`, or None when no position does |
| Chains.DistinctBounded | LinkedList.py:49-53 | a chain of distinct records is no longer than the arena, so the arena size is enough fuel for walking a list's chain |
| ListState.ShapeIsForward | LinkedList.py:18-35 | any chain of `len` distinct records from `head` to `last` is the list's chain |
| ListState.ChainFitsArena | LinkedList.py:18-35 | a list's chain is no longer than the arena |
| ListOps.Empty | LinkedList.py:18-20 | a new list is doubly linked, holds no values and has no cursor |
| ListOps.Add | LinkedList.py:27-35 | `add` keeps every link inside the arena, adds one to `len` and always leaves a head |
| ListOps.Extend | LinkedList.py:154-156 | `extend` adds `len(xs)` to `len` and leaves a head whenever `xs` is non-empty |
| ListOps.Append | LinkedList.py:37-39 | `append` keeps every link inside the arena and adds one to `len` |
| ListOps.FromSeq | LinkedList.py:18-23 | construction from a sequence sets `len` to its length and leaves no cursor |
| ListOps.FromScalar | LinkedList.py:21-25 | a zero seed gives an empty list; a non-zero scalar raises `TypeError` exactly when `iterable` is set, and otherwise gives a doubly linked list holding just that scalar |
| ListOps.Clear | LinkedList.py:84-87 | `clear` makes the list falsy with `len` 0 but keeps `last`, the cursor and `return_nodes` |
| ListOps.Get | LinkedList.py:56-72 | a position that is neither inside `[0, len)` nor `len - 1` raises `IndexError`; the only errors are `IndexError` and `AttributeError` |
| ListOps.Index | LinkedList.py:41-45 | `index` answers None whenever `start > end`, `start > len - 1` or `end < 1`, with `end` defaulting to `len` also when it is 0 |
| ListOps.Count | LinkedList.py:74-82 | `count` fails only by not terminating |
| ListOps.Iter | LinkedList.py:193-203 | iteration yields records exactly when `return_nodes` is set, and values otherwise |
| ListOps.Pop | LinkedList.py:98-118 | `pop` on a list with no head raises `IndexError`; a successful pop lowers `len` by one |
| ListOps.Insert | LinkedList.py:130-144 | `insert` at index 0 or index `len` is `add` of the unwrapped value |
| ListOps.SetItem | LinkedList.py:349-353 | a non-int key raises `TypeError`; a successful write keeps `len`, `head` and `last` |
| ListOps.DelItem | LinkedList.py:355-359 | a non-int key raises `TypeError`; with an int key, `del` gives exactly the list `pop` leaves, or raises the error `pop` raises |
| ListOps.Next | LinkedList.py:367-374 | `next` raises `StopIteration` exactly when there is no cursor or no head, changing nothing; otherwise it moves the cursor to the next record, changes nothing else, and raises `AttributeError` |
| ListProofs.WalkIsChain | LinkedList.py:193-203 | on a list whose forward chain agrees with `len`, walking from `head` visits exactly that chain |
| ListProofs.AddAppends | LinkedList.py:27-35 | `add(x)` turns values `s` into `s + [x]`; the new record is `last` and its `prev` is the old `last`; a doubly linked list stays doubly linked |
| ListProofs.ExtendAppends | LinkedList.py:154-156 | `extend(xs)` turns values `s` into `s + xs` and keeps the list doubly linked |
| ListProofs.FromSeqBuilds | LinkedList.py:18-23 | a list built from `xs` is doubly linked, holds exactly `xs`, and its first `next` raises `StopIteration` |
| ListProofs.LenAndTruthiness | LinkedList.py:316-318 | `len` is the number of values, and the list is truthy exactly when it holds a value |
| ListProofs.GetFinds | LinkedList.py:56-72 | `get(i)` returns the record at `i` resolved against `len` when that position is in range; on an empty list `get(-1)` returns None; every other index raises `IndexError` |
| ListProofs.IndexSearches | LinkedList.py:41-54 | when the gate passes, `index` returns the first position of the whole list holding `x`, or None |
| ListProofs.IndexIgnoresStart | LinkedList.py:47-53 | `index(s[0], start)` with `0 < start < len` returns 0, a position before `start` |
| ListProofs.CountOccurrences | LinkedList.py:74-82 | `count(x)` is the number of occurrences of `x` among the values |
| ListProofs.IterYields | LinkedList.py:193-203 | iteration yields one element per value, in order: the values, or the records when `return_nodes` is set |
| ListProofs.ShortChainNotForward | LinkedList.py:158-160 | a chain that ends before `len` records means `len` no longer counts the chain |
| ListProofs.PopEmpty | LinkedList.py:100-101 | `pop` on an empty list raises `IndexError` whatever the index |
| ListProofs.PopLast | LinkedList.py:103-109 | `pop()`, `pop(-1)` and `pop(len - 1)` return the last value and leave the others; the head goes only with the sole record; a doubly linked list stays doubly linked |
| ListProofs.PopFirst | LinkedList.py:111-113 | `pop(0)` and `pop(-len)` on two or more values return the first value and leave the rest; the cursor and `head` both name the new first record |
| ListProofs.PopFirstBreaksBacklinks | LinkedList.py:111-113 | after `pop(0)` the new head's `prev` still names the removed record, so the list is no longer doubly linked |
| ListProofs.PopInterior | LinkedList.py:114-117 | `pop(i)` for an interior position returns `s[i]` and leaves `s[..i] + s[i+1..]`; the successor's `prev` still names the removed record |
| ListProofs.PopInteriorBreaksBacklinks | LinkedList.py:114-116 | an interior `pop` leaves the list no longer doubly linked |
| ListProofs.PopOutOfRange | LinkedList.py:114-115 | `pop(i)` with `i` resolving outside `[0, len)` raises `IndexError` |
| ListProofs.InsertAppends | LinkedList.py:130-139 | `insert(x, 0)` and `insert(x, len)` give `s + [x]` with the value unwrapped from a Node, and keep the list doubly linked |
| ListProofs.InsertAtZeroAppends | LinkedList.py:134-136 | `insert(x, 0)` leaves the old first value first, so the values are not `[x] + s` |
| ListProofs.InsertSplices | LinkedList.py:140-144 | `insert(x, i)` for `0 < i < len` gives `s[..i] + [x] + s[i..]`, but the record now after `x` keeps its old `prev` |
| ListProofs.InsertBreaksBacklinks | LinkedList.py:140-143 | an interior `insert` leaves the list no longer doubly linked |
| ListProofs.InsertAtFrontRaises | LinkedList.py:140-143 | `insert(x, -len)` on a non-empty list, and `insert(x, -1)` on an empty one, raise `AttributeError` |
| ListProofs.InsertOutOfRange | LinkedList.py:137-140 | any other index resolving outside `[0, len]` raises `IndexError` |
| ListProofs.DelItemRemoves | LinkedList.py:355-359 | `del l[i]` for a position `r` in range leaves `s[..r] + s[r+1..]`, with the chain agreeing with `len` |
| ListProofs.SetItemWrites | LinkedList.py:349-353 | `l[i] = x` for a position in range gives `s[i := x]` and keeps both invariants |
| ListProofs.SetItemOutOfRange | LinkedList.py:349-353 | `l[i] = x` out of range raises `IndexError`, except `l[-1] = x` on an empty list, which raises `AttributeError` |
| ListProofs.ClearAddPopLeavesHead | LinkedList.py:84-109 | after `clear` the chain no longer agrees with `len`; after `clear`, `add(x)` and `pop()` the list is truthy with `len` 0 |
| ListProofs.GetAfterClearFindsDetached | LinkedList.py:60-63 | after `clear`, `get(-1)` returns the old last record instead of raising |
| ListProofs.PopThroughStalePrev | LinkedList.py:103-109 | `pop()` on a list whose last `prev` names an earlier record cuts the chain there, while `len` only drops by one |
| ListProofs.InsertThenPopDropsValue | LinkedList.py:103-143 | `insert(x, len - 1)` followed by `pop()` leaves only the first `len - 1` old values reachable from `head`, while `len` is back at its old value, so the chain no longer agrees with it |
| ListProofs.NextAfterPopFirstRaises | LinkedList.py:367-374 | after `pop(0)` the cursor names the new head, yet `next` raises `AttributeError` |
| Comparisons.Gt | LinkedList.py:252-263 | `>` raises `TypeError` exactly for a non-sequence operand; with both sides non-empty it is True only if the first elements are ordered that way, and False whenever they tie, whatever follows; with a side empty the lengths decide |
| Comparisons.Lt | LinkedList.py:265-276 | `<` raises `TypeError` exactly for a non-sequence operand; with both sides non-empty it is True only if the first elements are ordered that way, and False whenever they tie, whatever follows; with a side empty the lengths decide |
| Comparisons.Ge | LinkedList.py:278-287 | `>=` raises `TypeError` exactly for a non-sequence operand; it is False whenever some zipped pair has the left element smaller, and otherwise compares the lengths with `>=` |
| Comparisons.Le | LinkedList.py:289-298 | `<=` raises `TypeError` exactly for a non-sequence operand; it is False whenever some zipped pair has the left element larger, and otherwise compares the lengths with `<=` |
| Comparisons.Eq | LinkedList.py:300-310 | `==` is False for a non-iterable or a length mismatch; with equal lengths it is True for two empty operands and raises `AttributeError` otherwise, so it is True only for equal sequences |
| Comparisons.Ne | LinkedList.py:312-314 | `!=` succeeds exactly when `==` does, with the opposite answer |
| Comparisons.GtIsConverseOfLt | LinkedList.py:252-276 | `s > t` answers as `t < s` |
| Comparisons.GeIsConverseOfLe | LinkedList.py:278-298 | `s >= t` answers as `t <= s` |
| Comparisons.EqRaisesOnSameLength | LinkedList.py:303-304 | `==` and `!=` between a non-empty list and any iterable of the same length, equal lists included, raise `AttributeError` |
| Comparisons.LexAsymmetric | LinkedList.py:265-276 | the lexicographic order is asymmetric |
| Comparisons.LexTransitive | LinkedList.py:265-276 | the lexicographic order is transitive |
| Comparisons.LexTotal | LinkedList.py:265-276 | distinct sequences are ordered one way or the other |
| Comparisons.LtImpliesLexLess | LinkedList.py:265-276 | when `<` answers True, the left side does come first lexicographically |
| Comparisons.GeImpliesNotLexLess | LinkedList.py:278-287 | when `>=` answers True, the left side does not come first lexicographically |
| Comparisons.LtAndGeBothFalse | LinkedList.py:270-287 | `[2, 0] < [1, 5]` and `[2, 0] >= [1, 5]` are both False, though `[1, 5]` comes first |
| Comparisons.GtStopsAtFirstPair | LinkedList.py:257-261 | `[1, 5] > [1, 2]` is False, though `[1, 2]` comes first |
| Comparisons.TieInFirstPairMisorders | LinkedList.py:257-274 | for any two different non-empty operands whose first elements tie, `<` and `>` both answer False, though one operand comes first lexicographically |
| Comparisons.GeAndLeReflexive | LinkedList.py:278-298 | `l >= l` and `l <= l` are True |
| Comparisons.LtFixed | LinkedList.py:265-276 | the corrected `<` raises `TypeError` exactly for a non-sequence operand, and never holds between equal sequences |
| Comparisons.GtFixed | LinkedList.py:252-263 | the corrected `>` is the corrected `<` with the operands swapped |
| Comparisons.GeFixed | LinkedList.py:278-287 | the corrected `>=` is the negation of the corrected `<` |
| Comparisons.LeFixed | LinkedList.py:289-298 | the corrected `<=` is the negation of the corrected `>` |
| Comparisons.EqFixed | LinkedList.py:300-310 | the corrected `==` never raises |
| Comparisons.FixedOrderIsTotal | LinkedList.py:252-314 | the corrected `==` is equality of the values; exactly one of `<`, `==`, `>` holds; `<=` is `<` or `==` |
| Comparisons.LtFixedExtendsLt | LinkedList.py:265-276 | the corrected `<` agrees whenever the as-written one answers True, and whenever the first elements differ or a side is empty |
| Corrected.Clear | LinkedList.py:84-87 | a `clear` that also resets `last` and the cursor leaves a doubly linked list with no values |
| Corrected.Get | LinkedList.py:56-72 | `get` with its bounds checked first raises `IndexError` for every position outside `[0, len)` |
| Corrected.GetFinds | LinkedList.py:56-72 | the corrected `get` succeeds exactly for positions in `[0, len)` and then returns the record at that position |
| Corrected.Pop | LinkedList.py:98-118 | the corrected `pop` raises `IndexError` on an empty list or a position outside `[0, len)` |
| Corrected.PopLastKeeps | LinkedList.py:103-109 | removing the last position returns the last value and keeps the list doubly linked |
| Corrected.PopFirstKeeps | LinkedList.py:111-113 | removing position 0 of two or more values returns `s[0]`, leaves `s[1..]` and keeps the list doubly linked |
| Corrected.PopInteriorKeeps | LinkedList.py:114-116 | removing an interior position `i` returns `s[i]`, leaves `s[..i] + s[i+1..]` and keeps the list doubly linked |
| Corrected.PopKeepsWellLinked | LinkedList.py:98-118 | the corrected `pop` succeeds exactly for positions in `[0, len)`, returns `s[i]`, leaves `s[..i] + s[i+1..]` and keeps the list doubly linked |
| Corrected.ClearAddPopEmpties | LinkedList.py:84-109 | after the corrected `clear`, `add(x)` and the corrected `pop()` return `x` and leave an empty, falsy, doubly linked list |
| Corrected.PrependKeeps | LinkedList.py:134-136 | putting `x` in front of a non-empty list gives `[x] + s` and keeps it doubly linked |
| Corrected.Insert | LinkedList.py:130-144 | the corrected `insert` raises `IndexError` for every position outside `[0, len]` |
| Corrected.InsertInteriorKeeps | LinkedList.py:140-144 | inserting at an interior position gives `s[..i] + [x] + s[i..]` and keeps the list doubly linked |
| Corrected.InsertKeepsWellLinked | LinkedList.py:130-144 | the corrected `insert` succeeds exactly for positions in `[0, len]`, gives `s[..i] + [x] + s[i..]` and keeps the list doubly linked |
| Corrected.FirstInIsFirst | LinkedList.py:47-54 | the window search finds nothing exactly when no position of the window holds `x`, and otherwise finds the first such position |
| Corrected.IndexFindsInWindow | LinkedList.py:41-54 | the corrected `index` returns the first position inside `[start, end)` holding `x`, or None exactly when no position there does |
| Corrected.Index | LinkedList.py:41-54 | the corrected `index` answers only positions of the list that hold `x` |
| Corrected.Next | LinkedList.py:367-374 | the corrected `next` raises `StopIteration` exactly when there is no cursor or no head, changing nothing; otherwise it moves only the cursor, so a doubly linked list stays doubly linked whatever record the cursor names |
| Corrected.NextFollowsChain | LinkedList.py:367-374 | with the cursor on position `k`, the corrected `next` yields `s[k]` and moves the cursor to position `k + 1`, or unsets it after the last; a doubly linked list stays doubly linked |

## Left out

- `remove` and `__contains__` are not modelled. Both read a `data` attribute that records do not have. `remove` always raises `AttributeError`. `__contains__` answers False on an empty list and True when the first value iterated equals the item; otherwise it raises `AttributeError`.
- `extend` with a `DoublyLinkedList` argument is not modelled: it overwrites `head.next` and never moves `last`. Everything built on it is left out too: `sort`, `reverse`, `__add__`, `__radd__`, `__mul__`, `__reversed__` and `copy`.
- Slicing in `__getitem__` is not modelled: its type check has its arguments reversed, so every slice raises `TypeError`. `l[i]` with an int `i` is `get(i)`, as `ListOps.Get`.
- `__deepcopy__` (a library deep copy), `__repr__` and the string forms of records are not modelled; they only format values.
- Values are `int`. Python accepts any value and compares with whatever the value's type provides.
- `ListOps.FromScalar`: a non-iterable seed with `iterable` set is modelled only as the scalar case. A sequence seed with `iterable=False`, stored as one record holding the whole sequence, is not modelled because values are `int`.
- `Comparisons.Eq`: when the lengths match and the list is not empty, the source evaluates `other in self`. That reaches `__contains__`, which reads `data` from the list's first element. The model records this as `AttributeError`, so the pairwise loop that follows is not modelled, since it is only reached when both operands are empty.
- `ListOps.Next`: the successful half of `__next__` reads `data` and so always raises `AttributeError`; only that error and the exhaustion half are modelled.
- The comparison operators are modelled over the list's values. `len(self)` is read as the number of values, which holds whenever the forward chain agrees with `len`.
- An operand that is iterable but has no length (`len(other)` raising `TypeError`) is not modelled. `Comparisons.Other` covers sequences, other sized iterables and non-iterables.
- `Chains.Walk` stops after as many steps as the arena has records. The model treats running out as a cycle, where the Python loop would never end. The fact that an acyclic walk never needs more steps is proved for chains of distinct records (`Chains.DistinctBounded`). It is not proved in general.

## Findings

| source | as written | input that shows it | evidently intended | confidence | as-written member | corrected member |
|---|---|---|---|---|---|---|
| LinkedList.py:111-113 | `pop(0)` moves `head` to the second record but leaves that record's `prev` naming the removed one | a list built from `[1, 2]`, then `pop(0)` | the new head has no `prev` | not executed | ListProofs.PopFirstBreaksBacklinks | Corrected.PopKeepsWellLinked |
| LinkedList.py:114-116 | an interior `pop` points the predecessor past the removed record but never repairs the successor's `prev` | a list built from `[1, 2, 3]`, then `pop(1)` | the successor's `prev` names the predecessor | not executed | ListProofs.PopInteriorBreaksBacklinks | Corrected.PopKeepsWellLinked |
| LinkedList.py:140-143 | `insert` assigns `node.previous`, an attribute nothing reads, so the found record's `prev` still names the old predecessor; a later `pop()` through that link loses values | a list built from `[1, 2]`, then `insert(9, 1)` and `pop()` | the found record's `prev` names the new record | not executed | ListProofs.InsertThenPopDropsValue | Corrected.InsertKeepsWellLinked |
| LinkedList.py:134-136 | `insert(x, 0)` appends instead of putting `x` first | a list built from `[1]`, then `insert(9, 0)` gives `[1, 9]` | `[9, 1]` | not executed | ListProofs.InsertAtZeroAppends | Corrected.InsertKeepsWellLinked |
| LinkedList.py:140-143 | `insert(x, -len)` finds the head and dereferences its absent `prev` | a list built from `[1, 2]`, then `insert(9, -2)` raises `AttributeError` | `[9, 1, 2]` | not executed | ListProofs.InsertAtFrontRaises | Corrected.InsertKeepsWellLinked |
| LinkedList.py:84-87 | `clear` resets `head` and `len` but leaves `last` and the cursor, so the next `add` links onto the old chain | a list built from `[1]`, then `clear()`, `add(2)`, `pop()`: the list is truthy with `len` 0 | an empty list | not executed | ListProofs.ClearAddPopLeavesHead | Corrected.ClearAddPopEmpties |
| LinkedList.py:60-66 | `get` answers position `len - 1` from `last` before checking bounds, so `get(-1)` on an empty or cleared list returns a record or None instead of raising | a list built from `[1]`, then `clear()` and `get(-1)` returns the old record | `IndexError` | not executed | ListProofs.GetAfterClearFindsDetached | Corrected.GetFinds |
| LinkedList.py:41-54 | `index` uses `start` and `end` only to decide whether to search, then scans the whole list | a list built from `[5, 5]`, then `index(5, 1)` returns 0 | 1, the first match inside `[start, end)` | not executed | ListProofs.IndexIgnoresStart | Corrected.IndexFindsInWindow |
| LinkedList.py:257-276 | `>` and `<` return on the first zipped pair, even when its elements are equal | `[1, 5] > [1, 2]` is False | True, by lexicographic order | not executed | Comparisons.TieInFirstPairMisorders | Comparisons.FixedOrderIsTotal |
| LinkedList.py:283-298 | `>=` and `<=` return False if any zipped pair is out of order, even after an earlier pair has decided | `[2, 0] >= [1, 5]` and `[2, 0] < [1, 5]` are both False | `>=` True | not executed | Comparisons.LtAndGeBothFalse | Comparisons.FixedOrderIsTotal |
| LinkedList.py:303-304 | `==` between equal-length non-empty operands first asks `other in self`, which reads a missing attribute | a list built from `[1, 2, 3]` compared with `[1, 2, 3]` raises `AttributeError` | True | not executed | Comparisons.EqRaisesOnSameLength | Comparisons.FixedOrderIsTotal |
| LinkedList.py:372-374 | `__next__` returns `current.data`, an attribute records do not have | a list built from `[1, 2, 3]`, then `pop(0)` and `next(l)` raises `AttributeError` | the value 2 | not executed | ListProofs.NextAfterPopFirstRaises | Corrected.NextFollowsChain |

=== FILE: chain_edits.dfy ===
/** How the link edits the list operations perform change its chain:
    dropping the first or last record, bypassing one, splicing one in, and
    rewriting a `prev` link. Each is stated on explicit before/after states. */
module ChainEdits {
  import opened Outcomes
  import opened Nodes
  import opened Chains
  import opened ListState

  lemma DistinctWithout(ids: seq<nat>, i: nat)
    requires Distinct(ids) && i < |ids|
    ensures Distinct(ids[..i] + ids[i + 1..])
  {
    var ids' := ids[..i] + ids[i + 1..];
    forall a, b | 0 <= a < b < |ids'|
      ensures ids'[a] != ids'[b]
    {
      var a0 := if a < i then a else a + 1;
      var b0 := if b < i then b else b + 1;
      assert ids'[a] == ids[a0] && ids'[b] == ids[b0];
    }
  }

  lemma DistinctWith(ids: seq<nat>, i: nat, n: nat)
    requires Distinct(ids) && i <= |ids|
    requires forall k :: 0 <= k < |ids| ==> ids[k] < n
    ensures Distinct(ids[..i] + [n] + ids[i..])
  {
    var ids' := ids[..i] + [n] + ids[i..];
    forall a, b | 0 <= a < b < |ids'|
      ensures ids'[a] != ids'[b]
    {
      if a != i && b != i {
        var a0 := if a < i then a else a - 1;
        var b0 := if b < i then b else b - 1;
        assert ids'[a] == ids[a0] && ids'[b] == ids[b0];
      }
    }
  }

  /** Unfolding `Backlinked` at one position. */
  lemma BackAt(nodes: seq<Node>, ids: seq<nat>, k: int)
    requires Backlinked(nodes, ids) && 0 <= k < |ids|
    ensures ids[k] < |nodes| && nodes[ids[k]].prev == (if k == 0 then None else Some(ids[k - 1]))
  {
  }

  /** One mismatched `prev` link is enough to break the invariant. */
  lemma BrokenPrev(st: List, k: nat)
    requires Forward(st) && k < st.len
    requires st.nodes[Ids(st)[k]].prev != (if k == 0 then None else Some(Ids(st)[k - 1]))
    ensures !WellLinked(st)
  {
    var ids := Ids(st);
    assert !(ids[k] < |st.nodes| && st.nodes[ids[k]].prev == (if k == 0 then None else Some(ids[k - 1])));
  }

  lemma NextAt(st: List, k: nat)
    requires Forward(st) && k + 1 < st.len
    ensures st.nodes[Ids(st)[k]].next == Some(Ids(st)[k + 1])
  {
  }

  /** Cutting the `next` link of a chain's `m`-th record leaves its first
      `m` records linked, the last of them with no successor. */
  lemma CutAfter(nodes: seq<Node>, chain: seq<nat>, m: nat, nodes': seq<Node>)
    requires Linked(nodes, chain) && Distinct(chain) && 0 < m <= |chain|
    requires nodes' == nodes[chain[m - 1] := nodes[chain[m - 1]].(next := None)]
    ensures Linked(nodes', chain[..m]) && nodes'[chain[m - 1]].next.None?
  {
    var pre := chain[..m];
    forall k | 0 <= k < |pre| - 1
      ensures nodes'[pre[k]].next == Some(pre[k + 1])
    {
      assert pre[k] == chain[k] && pre[k + 1] == chain[k + 1] && chain[k] != chain[m - 1];
    }
  }

  /** Moving `head` to the second record drops the first from the chain. */
  lemma DropFirst(st: List, r: List)
    requires Forward(st) && st.len >= 2 && Valid(r)
    requires r.nodes == st.nodes && r.head == Some(Ids(st)[1]) && r.last == st.last && r.len == st.len - 1
    ensures Forward(r) && Ids(r) == Ids(st)[1..]
  {
    var ids := Ids(st);
    var ids' := ids[1..];
    forall k | 0 <= k < |ids'| - 1
      ensures r.nodes[ids'[k]].next == Some(ids'[k + 1])
    {
      assert ids'[k] == ids[k + 1] && ids'[k + 1] == ids[k + 2];
    }
    assert Shape(r, ids');
    ShapeIsForward(r, ids');
  }

  /** Cutting the link into the last record and making its predecessor
      `last` drops the last record; the `prev` links of the rest still agree. */
  lemma DropLast(st: List, r: List)
    requires Forward(st) && st.len >= 2 && Valid(r)
    requires var p := Ids(st)[st.len - 2];
             && r.nodes == st.nodes[p := st.nodes[p].(next := None)]
             && r.head == st.head && r.last == Some(p) && r.len == st.len - 1
    ensures Forward(r) && Ids(r) == Ids(st)[..st.len - 1]
    ensures Backlinked(st.nodes, Ids(st)) ==> Backlinked(r.nodes, Ids(r))
  {
    var ids := Ids(st);
    var p := ids[st.len - 2];
    var ids' := ids[..st.len - 1];
    forall k | 0 <= k < |ids'| - 1
      ensures r.nodes[ids'[k]].next == Some(ids'[k + 1])
    {
      assert ids[k] != p;
    }
    assert Shape(r, ids');
    ShapeIsForward(r, ids');
    if Backlinked(st.nodes, ids) {
      forall k | 0 <= k < |ids'|
        ensures ids'[k] < |r.nodes| && r.nodes[ids'[k]].prev == (if k == 0 then None else Some(ids'[k - 1]))
      {
        assert ids'[k] == ids[k];
        assert st.nodes[ids[k]].prev == (if k == 0 then None else Some(ids[k - 1]));
      }
      assert Backlinked(r.nodes, ids');
    }
  }

  /** Pointing the predecessor of position `i` past it drops position `i`. */
  lemma Bypass(st: List, i: nat, r: List)
    requires Forward(st) && 0 < i < st.len - 1 && Valid(r)
    requires var p := Ids(st)[i - 1];
             && r.nodes == st.nodes[p := st.nodes[p].(next := Some(Ids(st)[i + 1]))]
             && r.head == st.head && r.last == st.last && r.len == st.len - 1
    ensures Forward(r) && Ids(r) == Ids(st)[..i] + Ids(st)[i + 1..]
  {
    var ids := Ids(st);
    var p := ids[i - 1];
    var ids' := ids[..i] + ids[i + 1..];
    assert forall k :: 0 <= k < |ids'| ==> ids'[k] == (if k < i then ids[k] else ids[k + 1]);
    forall k | 0 <= k < |ids'| - 1
      ensures r.nodes[ids'[k]].next == Some(ids'[k + 1])
    {
      if k != i - 1 {
        var k0 := if k < i then k else k + 1;
        assert ids'[k] == ids[k0] && k0 != i - 1;
      }
    }
    DistinctWithout(ids, i);
    assert ids[|ids| - 1] != p;
    assert Shape(r, ids');
    ShapeIsForward(r, ids');
  }

  /** Bypass, with the values read off the shortened chain. Kept apart from
      `Bypass` because the two conclusions together exceed the solver budget
      of one proof; callers that only need the chain use `Bypass`. */
  lemma BypassValues(st: List, i: nat, r: List)
    requires Forward(st) && 0 < i < st.len - 1 && Valid(r)
    requires var p := Ids(st)[i - 1];
             && r.nodes == st.nodes[p := st.nodes[p].(next := Some(Ids(st)[i + 1]))]
             && r.head == st.head && r.last == st.last && r.len == st.len - 1
    ensures Forward(r) && Ids(r) == Ids(st)[..i] + Ids(st)[i + 1..]
    ensures Values(r) == Values(st)[..i] + Values(st)[i + 1..]
  {
    Bypass(st, i, r);
    assert Values(r) == Values(st)[..i] + Values(st)[i + 1..];
  }

  /** The links of a splice: the new record `n` sits between positions
      `i - 1` and `i`, and the rest of the chain is untouched. */
  lemma SpliceLinks(nodes: seq<Node>, nodes': seq<Node>, ids: seq<nat>, i: nat, added: Node)
    requires Linked(nodes, ids) && Distinct(ids) && 0 < i < |ids|
    requires added.next == Some(ids[i])
    requires var p := ids[i - 1];
             var grown := nodes + [added];
             nodes' == grown[p := grown[p].(next := Some(|nodes|))]
    ensures Linked(nodes', ids[..i] + [|nodes|] + ids[i..])
    ensures nodes'[ids[|ids| - 1]].next == nodes[ids[|ids| - 1]].next
  {
    var n := |nodes|;
    var p := ids[i - 1];
    var ids' := ids[..i] + [n] + ids[i..];
    assert forall k :: 0 <= k < |ids'| ==> ids'[k] == (if k < i then ids[k] else if k == i then n else ids[k - 1]);
    forall k | 0 <= k < |ids'| - 1
      ensures nodes'[ids'[k]].next == Some(ids'[k + 1])
    {
      if k < i - 1 {
        assert ids[k] != p;
      } else if k > i {
        assert ids[k - 1] != p;
      }
    }
    assert ids[|ids| - 1] != p;
  }

  /** A new record whose `next` is position `i`, named by the `next` of
      position `i - 1`, joins the chain at position `i`. */
  lemma Splice(st: List, i: nat, added: Node, r: List)
    requires Forward(st) && 0 < i < st.len && Valid(r)
    requires added.next == Some(Ids(st)[i])
    requires var n := |st.nodes|;
             var p := Ids(st)[i - 1];
             var grown := st.nodes + [added];
             && r.nodes == grown[p := grown[p].(next := Some(n))]
             && r.head == st.head && r.last == st.last && r.len == st.len + 1
    ensures Forward(r) && Ids(r) == Ids(st)[..i] + [|st.nodes|] + Ids(st)[i..]
  {
    var ids := Ids(st);
    var n := |st.nodes|;
    var ids' := ids[..i] + [n] + ids[i..];
    SpliceLinks(st.nodes, r.nodes, ids, i, added);
    assert forall k :: 0 <= k < |ids| ==> ids[k] < n;
    DistinctWith(ids, i, n);
    assert ids'[0] == ids[0] && ids'[|ids'| - 1] == ids[|ids| - 1];
    assert Shape(r, ids');
    ShapeIsForward(r, ids');
  }

  /** Splice, with the values read off the lengthened chain; kept apart from
      `Splice` for the same reason as `BypassValues`. */
  lemma SpliceValues(st: List, i: nat, added: Node, r: List)
    requires Forward(st) && 0 < i < st.len && Valid(r)
    requires added.next == Some(Ids(st)[i])
    requires var n := |st.nodes|;
             var p := Ids(st)[i - 1];
             var grown := st.nodes + [added];
             && r.nodes == grown[p := grown[p].(next := Some(n))]
             && r.head == st.head && r.last == st.last && r.len == st.len + 1
    ensures Forward(r) && Ids(r) == Ids(st)[..i] + [|st.nodes|] + Ids(st)[i..]
    ensures Values(r) == Values(st)[..i] + [added.value] + Values(st)[i..]
  {
    Splice(st, i, added, r);
    assert Values(r) == Values(st)[..i] + [added.value] + Values(st)[i..];
  }

  /** Rewriting a `prev` link leaves the forward chain as it was. */
  lemma SetPrev(st: List, j: nat, q: Option<nat>, r: List)
    requires Forward(st) && j < |st.nodes| && InArena(st.nodes, q)
    requires r == st.(nodes := st.nodes[j := st.nodes[j].(prev := q)])
    ensures Forward(r) && Ids(r) == Ids(st) && Values(r) == Values(st)
  {
    var ids := Ids(st);
    assert Shape(r, ids);
    ShapeIsForward(r, ids);
  }

  /** Rewriting a `prev` link so that the links mirror the chain makes the
      list doubly linked without changing its values. */
  lemma Relinked(st: List, j: nat, q: Option<nat>, r: List)
    requires Forward(st) && j < |st.nodes| && InArena(st.nodes, q)
    requires r == st.(nodes := st.nodes[j := st.nodes[j].(prev := q)])
    requires Backlinked(r.nodes, Ids(st))
    ensures WellLinked(r) && Values(r) == Values(st)
  {
    SetPrev(st, j, q, r);
  }

  /** Overwriting a payload leaves every link as it was. */
  lemma SetValue(st: List, j: nat, x: int, r: List)
    requires Forward(st) && j < |st.nodes|
    requires r == st.(nodes := st.nodes[j := st.nodes[j].(value := x)])
    ensures Forward(r) && Ids(r) == Ids(st)
    ensures Backlinked(st.nodes, Ids(st)) ==> Backlinked(r.nodes, Ids(r))
  {
    var ids := Ids(st);
    assert Shape(r, ids);
    ShapeIsForward(r, ids);
  }
}

=== FILE: chains.dfy ===
/** Chains of node records in an arena: following `next` links, the
    traversal loops of LinkedList.py, and the facts that tie them together. */
module Chains {
  import opened Outcomes
  import opened Nodes

  /** A link is absent or names a record of the arena. */
  predicate InArena(nodes: seq<Node>, p: Option<nat>)
  {
    p.Some? ==> p.value < |nodes|
  }

  /** Every link stored in the arena names a record of the arena. */
  predicate Closed(nodes: seq<Node>)
  {
    forall i :: 0 <= i < |nodes| ==> InArena(nodes, nodes[i].next) && InArena(nodes, nodes[i].prev)
  }

  predicate Bounded(nodes: seq<Node>, ids: seq<nat>)
  {
    forall k :: 0 <= k < |ids| ==> ids[k] < |nodes|
  }

  /** `ids` is a run of records, each one's `next` naming the one after it. */
  predicate Linked(nodes: seq<Node>, ids: seq<nat>)
  {
    && Bounded(nodes, ids)
    && forall k :: 0 <= k < |ids| - 1 ==> nodes[ids[k]].next == Some(ids[k + 1])
  }

  predicate Distinct(ids: seq<nat>)
  {
    forall i, j :: 0 <= i < j < |ids| ==> ids[i] != ids[j]
  }

  /** The payloads of the records `ids`, in order. */
  function ValuesOf(nodes: seq<Node>, ids: seq<nat>): (vs: seq<int>)
    requires Bounded(nodes, ids)
    ensures |vs| == |ids|
    ensures forall k :: 0 <= k < |ids| ==> vs[k] == nodes[ids[k]].value
  {
    seq(|ids|, k requires 0 <= k < |ids| => nodes[ids[k]].value)
  }

  /** The payloads of a run are its first payload and then the rest. */
  lemma ValuesOfCons(nodes: seq<Node>, i: nat, rest: seq<nat>)
    requires i < |nodes| && Bounded(nodes, rest)
    ensures ValuesOf(nodes, [i] + rest) == [nodes[i].value] + ValuesOf(nodes, rest)
  {
  }

  /** The `k` records reached by following `next` from `from`, or None when
      a `None` link comes first. */
  function Follow(nodes: seq<Node>, from: Option<nat>, k: nat): (r: Option<seq<nat>>)
    requires Closed(nodes) && InArena(nodes, from)
    ensures r.Some? ==> |r.value| == k && Linked(nodes, r.value)
    ensures r.Some? && k > 0 ==> from == Some(r.value[0])
    decreases k
  {
    if k == 0 then Some([])
    else if from.None? then None
    else
      match Follow(nodes, nodes[from.value].next, k - 1)
      case None => None
      case Some(rest) => Some([from.value] + rest)
  }

  /** Conversely, a linked run is what `Follow` finds from its first record. */
  lemma {:induction false} FollowOfLinked(nodes: seq<Node>, ids: seq<nat>)
    requires Closed(nodes) && Linked(nodes, ids) && |ids| > 0
    ensures Follow(nodes, Some(ids[0]), |ids|) == Some(ids)
    decreases |ids|
  {
    if |ids| == 1 {
      assert [ids[0]] + [] == ids;
    } else {
      var tail := ids[1..];
      assert Linked(nodes, tail) by {
        forall k | 0 <= k < |tail| - 1
          ensures nodes[tail[k]].next == Some(tail[k + 1])
        {
          assert tail[k] == ids[k + 1] && tail[k + 1] == ids[k + 2];
        }
      }
      FollowOfLinked(nodes, tail);
      assert nodes[ids[0]].next == Some(ids[1]);
      assert [ids[0]] + tail == ids;
    }
  }

  /** The records visited by a loop that follows `next` from `from` until it
      meets `None`, visiting at most `fuel` records; None when the fuel runs
      out first. With `fuel` the arena size, running out means the walk has
      revisited a record, so the loop it models never ends. */
  function Walk(nodes: seq<Node>, from: Option<nat>, fuel: nat): (r: Option<seq<nat>>)
    requires Closed(nodes) && InArena(nodes, from)
    ensures r.Some? ==> |r.value| <= fuel && Linked(nodes, r.value)
    ensures r.Some? ==> (r.value == [] <==> from.None?)
    ensures r.Some? && r.value != [] ==> from == Some(r.value[0]) && nodes[r.value[|r.value| - 1]].next.None?
    decreases fuel
  {
    if from.None? then Some([])
    else if fuel == 0 then None
    else
      match Walk(nodes, nodes[from.value].next, fuel - 1)
      case None => None
      case Some(rest) => Some([from.value] + rest)
  }

  /** A linked run ending in a `None` link is exactly what the walk visits,
      given enough fuel. */
  lemma {:induction false} WalkOfChain(nodes: seq<Node>, ids: seq<nat>, fuel: nat)
    requires Closed(nodes) && Linked(nodes, ids) && 0 < |ids| <= fuel
    requires nodes[ids[|ids| - 1]].next.None?
    ensures Walk(nodes, Some(ids[0]), fuel) == Some(ids)
    decreases |ids|
  {
    if |ids| == 1 {
      assert [ids[0]] + [] == ids;
    } else {
      var tail := ids[1..];
      assert Linked(nodes, tail) by {
        forall k | 0 <= k < |tail| - 1
          ensures nodes[tail[k]].next == Some(tail[k + 1])
        {
          assert tail[k] == ids[k + 1] && tail[k + 1] == ids[k + 2];
        }
      }
      WalkOfChain(nodes, tail, fuel - 1);
      assert [ids[0]] + tail == ids;
    }
  }

  /** Distinct positions below `n` number at most `n`. */
  lemma {:induction false} DistinctBounded(ids: seq<nat>, n: nat)
    requires Distinct(ids)
    requires forall k :: 0 <= k < |ids| ==> ids[k] < n
    ensures |ids| <= n
    decreases |ids|
  {
    if |ids| > 0 {
      // Drop the last position and close the gap it leaves below `n`.
      var v := ids[|ids| - 1];
      var rest := seq(|ids| - 1, k requires 0 <= k < |ids| - 1 => if ids[k] > v then ids[k] - 1 else ids[k]);
      assert Distinct(rest) by {
        forall i, j | 0 <= i < j < |rest|
          ensures rest[i] != rest[j]
        {
          assert ids[i] != ids[j] && ids[i] != v && ids[j] != v;
        }
      }
      forall k | 0 <= k < |rest|
        ensures rest[k] < n - 1
      {
        assert ids[k] != v;
      }
      DistinctBounded(rest, n - 1);
    }
  }

  /** The lookup loop of `get`: from `from`, step `n` times along `next`.
      Stepping from `None` is an attribute access on `None`. */
  function Nth(nodes: seq<Node>, from: Option<nat>, n: nat): (r: Result<Option<nat>>)
    requires Closed(nodes) && InArena(nodes, from)
    ensures r.Ok? ==> InArena(nodes, r.value)
    ensures r.Err? ==> r.error == AttributeError
    decreases n
  {
    if n == 0 then Ok(from)
    else if from.None? then Err(AttributeError)
    else Nth(nodes, nodes[from.value].next, n - 1)
  }

  /** Along a linked run, `n` steps from its first record reach its `n`th. */
  lemma {:induction false} NthOfLinked(nodes: seq<Node>, ids: seq<nat>, n: nat)
    requires Closed(nodes) && Linked(nodes, ids) && n < |ids|
    ensures Nth(nodes, Some(ids[0]), n) == Ok(Some(ids[n]))
    decreases n
  {
    if n > 0 {
      var tail := ids[1..];
      assert Linked(nodes, tail) by {
        forall k | 0 <= k < |tail| - 1
          ensures nodes[tail[k]].next == Some(tail[k + 1])
        {
          assert tail[k] == ids[k + 1] && tail[k + 1] == ids[k + 2];
        }
      }
      NthOfLinked(nodes, tail, n - 1);
    }
  }

  /** The counting loop of `count`: how many visited records hold `x`. */
  function CountFrom(nodes: seq<Node>, from: Option<nat>, fuel: nat, x: int): (r: Result<nat>)
    requires Closed(nodes) && InArena(nodes, from)
    ensures r.Err? ==> r.error == NoTermination
    decreases fuel
  {
    if from.None? then Ok(0)
    else if fuel == 0 then Err(NoTermination)
    else
      var i := from.value;
      match CountFrom(nodes, nodes[i].next, fuel - 1, x)
      case Err(e) => Err(e)
      case Ok(c) => Ok(if nodes[i].value == x then c + 1 else c)
  }

  /** The count succeeds exactly when the walk ends, and is then the number
      of walked records holding `x`. */
  lemma {:induction false} CountFromCounts(nodes: seq<Node>, from: Option<nat>, fuel: nat, x: int)
    requires Closed(nodes) && InArena(nodes, from)
    ensures CountFrom(nodes, from, fuel, x).Ok? <==> Walk(nodes, from, fuel).Some?
    ensures CountFrom(nodes, from, fuel, x).Ok? ==>
              CountFrom(nodes, from, fuel, x).value == multiset(ValuesOf(nodes, Walk(nodes, from, fuel).value))[x]
    decreases fuel
  {
    if from.Some? && fuel > 0 {
      var i := from.value;
      CountFromCounts(nodes, nodes[i].next, fuel - 1, x);
      var later := Walk(nodes, nodes[i].next, fuel - 1);
      if later.Some? {
        ValuesOfCons(nodes, i, later.value);
      }
    }
  }

  /** `r` is the first position of `x` in `s`, or None when `x` is absent. */
  predicate IsFirstIndex(s: seq<int>, x: int, r: Option<nat>)
  {
    match r
    case Some(k) => k < |s| && s[k] == x && forall j :: 0 <= j < k ==> s[j] != x
    case None => forall j :: 0 <= j < |s| ==> s[j] != x
  }

  /** The search loop of `index`: the position of the first visited record
      holding `x`. It stops at a match, so it can answer even on a cycle. */
  function FindFrom(nodes: seq<Node>, from: Option<nat>, fuel: nat, x: int): (r: Result<Option<nat>>)
    requires Closed(nodes) && InArena(nodes, from)
    ensures r.Err? ==> r.error == NoTermination
    decreases fuel
  {
    if from.None? then Ok(None)
    else if fuel == 0 then Err(NoTermination)
    else if nodes[from.value].value == x then Ok(Some(0))
    else
      match FindFrom(nodes, nodes[from.value].next, fuel - 1, x)
      case Err(e) => Err(e)
      case Ok(None) => Ok(None)
      case Ok(Some(k)) => Ok(Some(k + 1))
  }

  /** When the walk ends, the search answers with the first walked position
      holding `x`; it fails only when the walk does not end. */
  lemma {:induction false} FindFromFinds(nodes: seq<Node>, from: Option<nat>, fuel: nat, x: int)
    requires Closed(nodes) && InArena(nodes, from)
    ensures Walk(nodes, from, fuel).Some? ==>
              FindFrom(nodes, from, fuel, x).Ok? &&
              IsFirstIndex(ValuesOf(nodes, Walk(nodes, from, fuel).value), x, FindFrom(nodes, from, fuel, x).value)
    ensures FindFrom(nodes, from, fuel, x).Err? ==> Walk(nodes, from, fuel).None?
    decreases fuel
  {
    if from.Some? && fuel > 0 && nodes[from.value].value != x {
      var i := from.value;
      FindFromFinds(nodes, nodes[i].next, fuel - 1, x);
      var later := Walk(nodes, nodes[i].next, fuel - 1);
      if later.Some? {
        ValuesOfCons(nodes, i, later.value);
      }
    }
  }
}

=== FILE: comparisons.dfy ===
/** The comparison operators of `DoublyLinkedList` (LinkedList.py:252-314) as
    pure functions of the values the list iterates, together with the
    lexicographic order they are evidently meant to implement. */
module Comparisons {
  import opened Outcomes

  /** The right operand: a `list` or another `DoublyLinkedList` (by its
      values), some other sized iterable such as a tuple, or a non-iterable. */
  datatype Other = Sequence(items: seq<int>) | OtherIterable(items: seq<int>) | NotIterable

  /** Some zipped pair has its left element below its right one. */
  predicate SomePairBelow(s: seq<int>, t: seq<int>)
  {
    exists k :: 0 <= k < |s| && k < |t| && s[k] < t[k]
  }

  /** Some zipped pair has its left element above its right one. */
  predicate SomePairAbove(s: seq<int>, t: seq<int>)
  {
    exists k :: 0 <= k < |s| && k < |t| && s[k] > t[k]
  }

  /** `l > other` as written: the loop returns on the first zipped pair, so
      two non-empty operands are decided by their first elements alone;
      otherwise the lengths are compared (LinkedList.py:252-263). */
  function Gt(s: seq<int>, o: Other): (r: Result<bool>)
    ensures !o.Sequence? <==> r == Err(TypeError)
    ensures o.Sequence? && |s| > 0 && |o.items| > 0 && r == Ok(true) ==> s[0] > o.items[0]
    ensures o.Sequence? && |s| > 0 && |o.items| > 0 && s[0] == o.items[0] ==> r == Ok(false)
    ensures o.Sequence? && (|s| == 0 || |o.items| == 0) ==> r == Ok(|s| > |o.items|)
  {
    if !o.Sequence? then Err(TypeError)
    else if |s| > 0 && |o.items| > 0 then Ok(s[0] > o.items[0])
    else Ok(|s| > |o.items|)
  }

  /** `l < other` as written (LinkedList.py:265-276). */
  function Lt(s: seq<int>, o: Other): (r: Result<bool>)
    ensures !o.Sequence? <==> r == Err(TypeError)
    ensures o.Sequence? && |s| > 0 && |o.items| > 0 && r == Ok(true) ==> s[0] < o.items[0]
    ensures o.Sequence? && |s| > 0 && |o.items| > 0 && s[0] == o.items[0] ==> r == Ok(false)
    ensures o.Sequence? && (|s| == 0 || |o.items| == 0) ==> r == Ok(|s| < |o.items|)
  {
    if !o.Sequence? then Err(TypeError)
    else if |s| > 0 && |o.items| > 0 then Ok(s[0] < o.items[0])
    else Ok(|s| < |o.items|)
  }

  /** `l >= other` as written: False as soon as any zipped pair has the left
      element below the right one, else the lengths decide
      (LinkedList.py:278-287). */
  function Ge(s: seq<int>, o: Other): (r: Result<bool>)
    ensures !o.Sequence? <==> r == Err(TypeError)
    ensures o.Sequence? && SomePairBelow(s, o.items) ==> r == Ok(false)
    ensures o.Sequence? && !SomePairBelow(s, o.items) ==> r == Ok(|s| >= |o.items|)
  {
    if !o.Sequence? then Err(TypeError)
    else Ok(!SomePairBelow(s, o.items) && |s| >= |o.items|)
  }

  /** `l <= other` as written (LinkedList.py:289-298). */
  function Le(s: seq<int>, o: Other): (r: Result<bool>)
    ensures !o.Sequence? <==> r == Err(TypeError)
    ensures o.Sequence? && SomePairAbove(s, o.items) ==> r == Ok(false)
    ensures o.Sequence? && !SomePairAbove(s, o.items) ==> r == Ok(|s| <= |o.items|)
  {
    if !o.Sequence? then Err(TypeError)
    else Ok(!SomePairAbove(s, o.items) && |s| <= |o.items|)
  }

  /** `l == other` as written: a non-iterable or a length mismatch is False;
      with equal lengths the source first asks `other in self`, whose
      membership test reads an attribute the list's elements lack, so any
      non-empty list raises `AttributeError`; two empty operands are equal
      (LinkedList.py:300-310). */
  function Eq(s: seq<int>, o: Other): (r: Result<bool>)
    ensures o.NotIterable? ==> r == Ok(false)
    ensures !o.NotIterable? && |s| != |o.items| ==> r == Ok(false)
    ensures r == Ok(true) ==> !o.NotIterable? && s == o.items
    ensures !o.NotIterable? && |s| == |o.items| ==> r == (if |s| == 0 then Ok(true) else Err(AttributeError))
  {
    if o.NotIterable? || |s| != |o.items| then Ok(false)
    else if |s| == 0 then Ok(true)
    else Err(AttributeError)
  }

  /** `l != other` negates `==`, passing its exception on (LinkedList.py:312-314). */
  function Ne(s: seq<int>, o: Other): (r: Result<bool>)
    ensures r.Ok? <==> Eq(s, o).Ok?
    ensures r.Ok? ==> r.value == !Eq(s, o).value
  {
    match Eq(s, o)
    case Ok(b) => Ok(!b)
    case Err(e) => Err(e)
  }

  /** Swapping the operands turns `>` into `<`. */
  lemma GtIsConverseOfLt(s: seq<int>, t: seq<int>)
    ensures Gt(s, Sequence(t)) == Lt(t, Sequence(s))
  {
  }

  /** Swapping the operands turns `>=` into `<=`. */
  lemma GeIsConverseOfLe(s: seq<int>, t: seq<int>)
    ensures Ge(s, Sequence(t)) == Le(t, Sequence(s))
  {
  }

  /** A non-empty list compared with any iterable of the same length, equal
      lists included, does not answer: `==` and `!=` raise. */
  lemma EqRaisesOnSameLength(s: seq<int>, o: Other)
    requires !o.NotIterable? && |s| > 0 && |o.items| == |s|
    ensures Eq(s, o) == Err(AttributeError)
    ensures Ne(s, o) == Err(AttributeError)
  {
  }

  // The lexicographic order the operators are meant to implement.

  /** `s` comes before `t`: at the first position where they differ `s` has
      the smaller element, or `s` is a proper prefix of `t`. */
  predicate LexLess(s: seq<int>, t: seq<int>)
    decreases |s|
  {
    if s == [] then t != []
    else if t == [] then false
    else s[0] < t[0] || (s[0] == t[0] && LexLess(s[1..], t[1..]))
  }

  lemma {:induction false} LexAsymmetric(s: seq<int>, t: seq<int>)
    ensures LexLess(s, t) ==> !LexLess(t, s)
    decreases |s|
  {
    if s != [] && t != [] && s[0] == t[0] {
      LexAsymmetric(s[1..], t[1..]);
    }
  }

  lemma {:induction false} LexTransitive(a: seq<int>, b: seq<int>, c: seq<int>)
    requires LexLess(a, b) && LexLess(b, c)
    ensures LexLess(a, c)
    decreases |a|
  {
    if a != [] && a[0] == b[0] && b[0] == c[0] {
      LexTransitive(a[1..], b[1..], c[1..]);
    }
  }

  /** Distinct sequences are ordered one way or the other. */
  lemma {:induction false} LexTotal(s: seq<int>, t: seq<int>)
    requires s != t
    ensures LexLess(s, t) || LexLess(t, s)
    decreases |s|
  {
    if s != [] && t != [] && s[0] == t[0] {
      assert s == [s[0]] + s[1..] && t == [t[0]] + t[1..];
      LexTotal(s[1..], t[1..]);
    }
  }

  /** The as-written `<` never claims more than the lexicographic order. */
  lemma LtImpliesLexLess(s: seq<int>, t: seq<int>)
    ensures Lt(s, Sequence(t)) == Ok(true) ==> LexLess(s, t)
  {
  }

  /** The as-written `>=` never claims more than the lexicographic order:
      with no zipped pair below and at least the length, `s` is not before `t`. */
  lemma {:induction false} GeImpliesNotLexLess(s: seq<int>, t: seq<int>)
    ensures Ge(s, Sequence(t)) == Ok(true) ==> !LexLess(s, t)
    decreases |s|
  {
    if Ge(s, Sequence(t)) == Ok(true) && s != [] && t != [] {
      assert !(s[0] < t[0]);
      if s[0] == t[0] {
        forall k | 0 <= k < |s| - 1 && k < |t| - 1
          ensures !(s[1..][k] < t[1..][k])
        {
          assert s[1..][k] == s[k + 1] && t[1..][k] == t[k + 1];
        }
        assert !SomePairBelow(s[1..], t[1..]);
        GeImpliesNotLexLess(s[1..], t[1..]);
      }
    }
  }

  /** Deciding on the first pair alone: `[2, 0] < [1, 5]` and `[2, 0] >= [1, 5]`
      are both False, though `[2, 0]` comes after `[1, 5]`. */
  lemma LtAndGeBothFalse()
    ensures Lt([2, 0], Sequence([1, 5])) == Ok(false)
    ensures Ge([2, 0], Sequence([1, 5])) == Ok(false)
    ensures LexLess([1, 5], [2, 0])
  {
    assert SomePairBelow([2, 0], [1, 5]) by {
      assert [2, 0][1] < [1, 5][1];
    }
  }

  /** `[1, 5] > [1, 2]` is False although `[1, 2]` comes first. */
  lemma GtStopsAtFirstPair()
    ensures Gt([1, 5], Sequence([1, 2])) == Ok(false)
    ensures LexLess([1, 2], [1, 5])
  {
    assert [1, 2][1..] == [2] && [1, 5][1..] == [5];
  }

  /** Whenever two different non-empty operands tie in their first pair,
      `<` and `>` both answer False, although one of them comes first. */
  lemma TieInFirstPairMisorders(s: seq<int>, t: seq<int>)
    requires |s| > 0 && |t| > 0 && s[0] == t[0] && s != t
    ensures Lt(s, Sequence(t)) == Ok(false) && Gt(s, Sequence(t)) == Ok(false)
    ensures LexLess(s, t) || LexLess(t, s)
  {
    LexTotal(s, t);
  }

  /** `>=` and `<=` hold between a sequence and itself: no zipped pair is out
      of order, and the lengths agree. */
  lemma GeAndLeReflexive(s: seq<int>)
    ensures Ge(s, Sequence(s)) == Ok(true) && Le(s, Sequence(s)) == Ok(true)
  {
    assert !SomePairBelow(s, s) && !SomePairAbove(s, s);
  }

  /** `l < other` by the lexicographic order. */
  function LtFixed(s: seq<int>, o: Other): (r: Result<bool>)
    ensures !o.Sequence? <==> r == Err(TypeError)
    ensures o.Sequence? && r == Ok(true) ==> s != o.items
  {
    if !o.Sequence? then Err(TypeError)
    else
      LexAsymmetric(s, o.items);
      Ok(LexLess(s, o.items))
  }

  /** `l > other` by the lexicographic order. */
  function GtFixed(s: seq<int>, o: Other): (r: Result<bool>)
    ensures !o.Sequence? <==> r == Err(TypeError)
    ensures o.Sequence? ==> r == LtFixed(o.items, Sequence(s))
  {
    if !o.Sequence? then Err(TypeError) else Ok(LexLess(o.items, s))
  }

  /** `l >= other`: not before. */
  function GeFixed(s: seq<int>, o: Other): (r: Result<bool>)
    ensures !o.Sequence? <==> r == Err(TypeError)
    ensures o.Sequence? ==> r == Ok(!LtFixed(s, o).value)
  {
    if !o.Sequence? then Err(TypeError) else Ok(!LexLess(s, o.items))
  }

  /** `l <= other`: not after. */
  function LeFixed(s: seq<int>, o: Other): (r: Result<bool>)
    ensures !o.Sequence? <==> r == Err(TypeError)
    ensures o.Sequence? ==> r == Ok(!GtFixed(s, o).value)
  {
    if !o.Sequence? then Err(TypeError) else Ok(!LexLess(o.items, s))
  }

  /** `l == other`: a non-iterable is unequal; otherwise equal lengths and
      equal elements pair by pair. */
  function EqFixed(s: seq<int>, o: Other): (r: Result<bool>)
    ensures r.Ok?
  {
    if o.NotIterable? then Ok(false)
    else Ok(|s| == |o.items| && forall k :: 0 <= k < |s| ==> s[k] == o.items[k])
  }

  predicate ExactlyOne(a: bool, b: bool, c: bool)
  {
    (a && !b && !c) || (!a && b && !c) || (!a && !b && c)
  }

  /** The corrected operators: exactly one of `<`, `==`, `>` holds, `<=` is
      `<` or `==`, and `==` is equality of the value sequences. */
  lemma FixedOrderIsTotal(s: seq<int>, t: seq<int>)
    ensures EqFixed(s, Sequence(t)) == Ok(s == t)
    ensures ExactlyOne(LtFixed(s, Sequence(t)).value, EqFixed(s, Sequence(t)).value, GtFixed(s, Sequence(t)).value)
    ensures LeFixed(s, Sequence(t)).value <==> LtFixed(s, Sequence(t)).value || EqFixed(s, Sequence(t)).value
  {
    if |s| == |t| && forall k :: 0 <= k < |s| ==> s[k] == t[k] {
      assert s == t;
    }
    LexAsymmetric(s, t);
    if s != t {
      LexTotal(s, t);
    }
  }

  /** Where the as-written `<` answers True the corrected one agrees; the two
      also agree whenever the first elements differ or an operand is empty. */
  lemma LtFixedExtendsLt(s: seq<int>, t: seq<int>)
    ensures Lt(s, Sequence(t)) == Ok(true) ==> LtFixed(s, Sequence(t)) == Ok(true)
    ensures |s| == 0 || |t| == 0 || s[0] != t[0] ==> Lt(s, Sequence(t)) == LtFixed(s, Sequence(t))
  {
  }
}

=== FILE: corrected.dfy ===
/** The list operations as evidently intended: `clear` forgets every
    reference, `get` checks its bounds before answering from `last`, `pop`
    and `insert` keep the `prev` links mirroring the `next` links, `insert(x, 0)`
    puts `x` in front, and `index` searches only between its bounds. Each one
    keeps the doubly linked invariant. */
module Corrected {
  import opened Outcomes
  import opened Nodes
  import opened Chains
  import opened ListState
  import opened ChainEdits
  import ListOps
  import ListProofs

  /** `clear` resetting `last` and the cursor as well as `head`. */
  function Clear(st: List): (r: List)
    requires Valid(st)
    ensures WellLinked(r) && Values(r) == []
    ensures r.current.None? && r.nodes == st.nodes && r.returnNodes == st.returnNodes
  {
    var r := st.(head := None, last := None, current := None, len := 0);
    assert Shape(r, []);
    ShapeIsForward(r, []);
    r
  }

  /** `get` with the bounds checked first: only positions in `[0, len)` are
      answered, the last one from `last`. */
  function Get(st: List, index: int): (r: Result<Option<nat>>)
    requires Valid(st)
    ensures r.Ok? ==> InArena(st.nodes, r.value)
    ensures !(0 <= ListOps.Resolve(st, index) < st.len) ==> r == Err(IndexError)
  {
    var i := ListOps.Resolve(st, index);
    if i < 0 || i > st.len - 1 then Err(IndexError)
    else if i == st.len - 1 then Ok(st.last)
    else Nth(st.nodes, st.head, i)
  }

  /** On a list whose forward links agree, `get` finds exactly the positions
      `[0, len)`, and finds the record at that position. */
  lemma GetFinds(st: List, index: int)
    requires Forward(st)
    ensures Get(st, index).Ok? <==> 0 <= ListOps.Resolve(st, index) < st.len
    ensures Get(st, index).Ok? ==> Get(st, index) == Ok(Some(Ids(st)[ListOps.Resolve(st, index)]))
  {
    if 0 <= ListOps.Resolve(st, index) < st.len {
      assert Get(st, index) == ListOps.Get(st, index);
      ListProofs.GetFinds(st, index);
    }
  }

  /** The position `pop` removes: the last one when no index is given. */
  function PopPosition(st: List, index: Option<int>): (pos: int)
  {
    if index.None? then st.len - 1 else ListOps.Resolve(st, index.value)
  }

  /** The forward half of an unlink, all the source does: `p`'s `next`
      becomes `next`. */
  function UnlinkForward(st: List, p: nat, next: Option<nat>): (r: List)
    requires Valid(st) && p < |st.nodes| && InArena(st.nodes, next)
    ensures Valid(r) && r.len == st.len - 1
  {
    st.(nodes := st.nodes[p := st.nodes[p].(next := next)], len := st.len - 1)
  }

  /** Unlinks the record after `p`: `p`'s `next` becomes `next`, and the
      record `next` names, if any, gets `p` as its `prev`. */
  function Unlink(st: List, p: nat, next: Option<nat>): (r: List)
    requires Valid(st) && p < |st.nodes| && InArena(st.nodes, next)
    ensures Valid(r) && r.len == st.len - 1
  {
    var mid := UnlinkForward(st, p, next);
    if next.Some? then mid.(nodes := mid.nodes[next.value := mid.nodes[next.value].(prev := Some(p))])
    else mid
  }

  /** `pop` with every removal repairing the `prev` link of the record after
      the removed one: the new head's becomes absent, an interior successor's
      names the removed record's predecessor. */
  function Pop(st: List, index: Option<int>): (r: Result<ListOps.Popped>)
    requires Valid(st)
    ensures st.head.None? || !(0 <= PopPosition(st, index) < st.len) ==> r == Err(IndexError)
    ensures r.Ok? ==> Valid(r.value.list) && r.value.list.len == st.len - 1
  {
    var i := PopPosition(st, index);
    if st.head.None? || i < 0 || i > st.len - 1 then Err(IndexError)
    else if i == st.len - 1 then
      match st.last
      case None => Err(AttributeError)
      case Some(l) =>
        var item := st.nodes[l];
        var unlinked :=
          if item.prev.None? then st.(head := None)
          else st.(nodes := st.nodes[item.prev.value := st.nodes[item.prev.value].(next := None)]);
        Ok(ListOps.Popped(unlinked.(last := item.prev, len := st.len - 1), item.value))
    else if i == 0 then
      var item := st.nodes[st.head.value];
      var relinked :=
        if item.next.Some? then st.nodes[item.next.value := st.nodes[item.next.value].(prev := None)]
        else st.nodes;
      Ok(ListOps.Popped(st.(nodes := relinked, head := item.next, current := item.next, len := st.len - 1), item.value))
    else
      match Get(st, i)
      case Err(e) => Err(e)
      case Ok(None) => Err(AttributeError)
      case Ok(Some(o)) =>
        var item := st.nodes[o];
        match item.prev
        case None => Err(AttributeError)
        case Some(p) =>
          Ok(ListOps.Popped(Unlink(st, p, item.next), item.value))
  }

  /** Removing the last record: the same link edits as LinkedList.py. */
  lemma PopLastKeeps(st: List, index: Option<int>)
    requires WellLinked(st) && st.len > 0 && PopPosition(st, index) == st.len - 1
    ensures Pop(st, index).Ok?
    ensures Pop(st, index).value.value == Values(st)[st.len - 1]
    ensures WellLinked(Pop(st, index).value.list)
    ensures Values(Pop(st, index).value.list) == Values(st)[..st.len - 1]
  {
    ListProofs.PopLast(st, None);
    assert Pop(st, index) == ListOps.Pop(st, None);
  }

  /** The `prev` links after dropping the first record of a chain: only the
      new first record's changed, and it is now absent. */
  lemma BackAfterDropFirst(nodes: seq<Node>, nodes': seq<Node>, ids: seq<nat>)
    requires Backlinked(nodes, ids) && Distinct(ids) && |ids| >= 2 && |nodes'| == |nodes|
    requires forall j :: 0 <= j < |nodes| && j != ids[1] ==> nodes'[j].prev == nodes[j].prev
    requires nodes'[ids[1]].prev == None
    ensures Backlinked(nodes', ids[1..])
  {
    var ids' := ids[1..];
    forall k | 0 <= k < |ids'|
      ensures ids'[k] < |nodes'| && nodes'[ids'[k]].prev == (if k == 0 then None else Some(ids'[k - 1]))
    {
      assert ids'[k] == ids[k + 1];
      if k > 0 {
        assert ids[k + 1] != ids[1];
        BackAt(nodes, ids, k + 1);
      }
    }
    assert Backlinked(nodes', ids');
  }

  /** The `prev` links after bypassing position `i`: only the successor's
      changed, and it now names the predecessor. */
  lemma BackAfterBypass(nodes: seq<Node>, mid: seq<Node>, nodes': seq<Node>, ids: seq<nat>, i: nat)
    requires Backlinked(nodes, ids) && Distinct(ids) && 0 < i < |ids| - 1
    requires mid == nodes[ids[i - 1] := nodes[ids[i - 1]].(next := Some(ids[i + 1]))]
    requires nodes' == mid[ids[i + 1] := mid[ids[i + 1]].(prev := Some(ids[i - 1]))]
    ensures Backlinked(nodes', ids[..i] + ids[i + 1..])
  {
    var ids' := ids[..i] + ids[i + 1..];
    forall k | 0 <= k < |ids'|
      ensures ids'[k] < |nodes'| && nodes'[ids'[k]].prev == (if k == 0 then None else Some(ids'[k - 1]))
    {
      if k < i {
        assert ids'[k] == ids[k] && ids[k] != ids[i + 1];
        assert k > 0 ==> ids'[k - 1] == ids[k - 1];
        BackAt(nodes, ids, k);
      } else if k > i {
        assert ids'[k] == ids[k + 1] && ids[k + 1] != ids[i + 1] && ids'[k - 1] == ids[k];
        BackAt(nodes, ids, k + 1);
      } else {
        assert ids'[k] == ids[i + 1] && ids'[k - 1] == ids[i - 1];
      }
    }
    assert Backlinked(nodes', ids');
  }

  /** The state `pop` leaves for position 0 of two or more. */
  lemma PopFirstState(st: List, index: Option<int>)
    requires WellLinked(st) && st.len >= 2 && PopPosition(st, index) == 0
    ensures var ids := Ids(st);
            Pop(st, index) ==
              Ok(ListOps.Popped(st.(nodes := st.nodes[ids[1] := st.nodes[ids[1]].(prev := None)],
                                    head := Some(ids[1]), current := Some(ids[1]), len := st.len - 1),
                                st.nodes[ids[0]].value))
  {
    NextAt(st, 0);
  }

  /** Removing the first of two or more records clears the new head's `prev`. */
  lemma PopFirstKeeps(st: List, index: Option<int>)
    requires WellLinked(st) && st.len >= 2 && PopPosition(st, index) == 0
    ensures Pop(st, index).Ok?
    ensures Pop(st, index).value.value == Values(st)[0]
    ensures WellLinked(Pop(st, index).value.list)
    ensures Values(Pop(st, index).value.list) == Values(st)[1..]
  {
    var ids := Ids(st);
    var s := ids[1];
    NextAt(st, 0);
    var mid := st.(head := Some(s), current := Some(s), len := st.len - 1);
    DropFirst(st, mid);
    var r := mid.(nodes := mid.nodes[s := mid.nodes[s].(prev := None)]);
    PopFirstState(st, index);
    SetPrev(mid, s, None, r);
    BackAfterDropFirst(st.nodes, r.nodes, ids);
    assert Values(r) == Values(st)[1..];
  }

  /** The state `pop` leaves for an interior position. */
  lemma PopInteriorState(st: List, index: Option<int>)
    requires WellLinked(st) && 0 < PopPosition(st, index) < st.len - 1
    ensures var ids := Ids(st);
            var i := PopPosition(st, index);
            var p := ids[i - 1];
            Pop(st, index) == Ok(ListOps.Popped(Unlink(st, p, Some(ids[i + 1])), st.nodes[ids[i]].value))
  {
    var i := PopPosition(st, index);
    GetFinds(st, i);
    assert ListOps.Resolve(st, i) == i;
    BackAt(st.nodes, Ids(st), i);
    NextAt(st, i);
  }

  /** The state an interior removal leaves is doubly linked and holds the
      other values in order. */
  lemma PopInteriorResult(st: List, i: nat)
    requires WellLinked(st) && 0 < i < st.len - 1
    ensures var ids := Ids(st);
            var r := Unlink(st, ids[i - 1], Some(ids[i + 1]));
            WellLinked(r) && Values(r) == Values(st)[..i] + Values(st)[i + 1..]
  {
    var ids := Ids(st);
    var p := ids[i - 1];
    var s := ids[i + 1];
    var mid := UnlinkForward(st, p, Some(s));
    BypassValues(st, i, mid);
    var r := Unlink(st, p, Some(s));
    BackAfterBypass(st.nodes, mid.nodes, r.nodes, ids, i);
    Relinked(mid, s, Some(p), r);
  }

  /** Removing an interior record points its successor's `prev` at its
      predecessor. */
  lemma PopInteriorKeeps(st: List, index: Option<int>)
    requires WellLinked(st) && 0 < PopPosition(st, index) < st.len - 1
    ensures Pop(st, index).Ok?
    ensures Pop(st, index).value.value == Values(st)[PopPosition(st, index)]
    ensures WellLinked(Pop(st, index).value.list)
    ensures Values(Pop(st, index).value.list) ==
              Values(st)[..PopPosition(st, index)] + Values(st)[PopPosition(st, index) + 1..]
  {
    PopInteriorState(st, index);
    PopInteriorResult(st, PopPosition(st, index));
  }

  /** `pop` removes and returns the value at any position of `[0, len)` and
      keeps the doubly linked invariant; any other position is `IndexError`. */
  lemma PopKeepsWellLinked(st: List, index: Option<int>)
    requires WellLinked(st)
    ensures Pop(st, index).Ok? <==> 0 <= PopPosition(st, index) < st.len
    ensures Pop(st, index).Ok? ==>
              var i := PopPosition(st, index);
              && Pop(st, index).value.value == Values(st)[i]
              && WellLinked(Pop(st, index).value.list)
              && Values(Pop(st, index).value.list) == Values(st)[..i] + Values(st)[i + 1..]
  {
    var i := PopPosition(st, index);
    if 0 <= i < st.len {
      if i == st.len - 1 {
        PopLastKeeps(st, index);
        assert Values(st)[i + 1..] == [];
      } else if i == 0 {
        PopFirstKeeps(st, index);
      } else {
        PopInteriorKeeps(st, index);
      }
    }
  }

  /** After the corrected `clear`, adding one value and popping it leaves an
      empty, falsy list again. */
  lemma ClearAddPopEmpties(st: List, x: int)
    requires Valid(st)
    ensures Pop(ListOps.Add(Clear(st), x), None).Ok?
    ensures var after := Pop(ListOps.Add(Clear(st), x), None).value;
            && after.value == x
            && WellLinked(after.list) && Values(after.list) == []
            && !ListOps.Truthy(after.list)
  {
    var c := Clear(st);
    ListProofs.AddAppends(c, x);
    var a := ListOps.Add(c, x);
    PopKeepsWellLinked(a, None);
  }

  /** A new first record whose successor is the old head, whose `prev` is
      set to name it. */
  function Prepend(st: List, x: int, h: nat): (r: List)
    requires Valid(st) && st.head == Some(h)
    ensures Valid(r) && r.len == st.len + 1 && r.head == Some(|st.nodes|)
  {
    var n := |st.nodes|;
    var grown := st.nodes + [Node(x, Some(h), None)];
    st.(nodes := grown[h := grown[h].(prev := Some(n))], head := Some(n), len := st.len + 1)
  }

  /** The `prev` links after putting record `n` in front of a chain. */
  lemma BackAfterPrepend(nodes: seq<Node>, nodes': seq<Node>, ids: seq<nat>, n: nat)
    requires Backlinked(nodes, ids) && Distinct(ids) && |ids| >= 1
    requires n == |nodes| && |nodes'| == n + 1
    requires forall j :: 0 <= j < n && j != ids[0] ==> nodes'[j].prev == nodes[j].prev
    requires nodes'[ids[0]].prev == Some(n) && nodes'[n].prev == None
    ensures Backlinked(nodes', [n] + ids)
  {
    var ids' := [n] + ids;
    forall k | 0 <= k < |ids'|
      ensures ids'[k] < |nodes'| && nodes'[ids'[k]].prev == (if k == 0 then None else Some(ids'[k - 1]))
    {
      if k > 1 {
        assert ids'[k] == ids[k - 1] && ids[k - 1] != ids[0] && ids'[k - 1] == ids[k - 2];
        BackAt(nodes, ids, k - 1);
      }
    }
    assert Backlinked(nodes', ids');
  }

  /** The forward chain after prepending is the new record and the old chain. */
  lemma PrependExtendsChain(st: List, x: int)
    requires Forward(st) && st.len > 0
    ensures Prepend.requires(st, x, Ids(st)[0])
    ensures Forward(Prepend(st, x, Ids(st)[0])) && Ids(Prepend(st, x, Ids(st)[0])) == [|st.nodes|] + Ids(st)
  {
    var ids := Ids(st);
    var n := |st.nodes|;
    var r := Prepend(st, x, ids[0]);
    var ids' := [n] + ids;
    assert forall k :: 0 <= k < |ids| ==> ids[k] < n;
    forall k | 0 <= k < |ids'| - 1
      ensures r.nodes[ids'[k]].next == Some(ids'[k + 1])
    {
      if k > 0 {
        assert ids'[k] == ids[k - 1];
      }
    }
    assert Distinct(ids');
    assert Shape(r, ids');
    ShapeIsForward(r, ids');
  }

  /** Putting a record in front of a non-empty list keeps the invariant. */
  lemma PrependKeeps(st: List, x: int)
    requires WellLinked(st) && st.len > 0
    ensures Prepend.requires(st, x, Ids(st)[0])
    ensures WellLinked(Prepend(st, x, Ids(st)[0]))
    ensures Values(Prepend(st, x, Ids(st)[0])) == [x] + Values(st)
  {
    var ids := Ids(st);
    var n := |st.nodes|;
    var r := Prepend(st, x, ids[0]);
    PrependExtendsChain(st, x);
    BackAfterPrepend(st.nodes, r.nodes, ids, n);
    assert Values(r) == [x] + Values(st);
  }

  /** The forward half of a splice, all the source does: a new record
      holding `x`, whose `next` is `o` and `prev` is `p`, named by `p`'s
      `next`. */
  function SpliceForward(st: List, x: int, p: nat, o: nat): (r: List)
    requires Valid(st) && p < |st.nodes| && o < |st.nodes|
    ensures Valid(r) && r.len == st.len + 1
  {
    var n := |st.nodes|;
    var grown := st.nodes + [Node(x, Some(o), Some(p))];
    st.(nodes := grown[p := grown[p].(next := Some(n))], len := st.len + 1)
  }

  /** A new record holding `x` between `p` and `o`, linked both ways. */
  function SpliceBetween(st: List, x: int, p: nat, o: nat): (r: List)
    requires Valid(st) && p < |st.nodes| && o < |st.nodes|
    ensures Valid(r) && r.len == st.len + 1
  {
    var mid := SpliceForward(st, x, p, o);
    mid.(nodes := mid.nodes[o := mid.nodes[o].(prev := Some(|st.nodes|))])
  }

  /** `insert` that resolves its index, rejects positions outside `[0, len]`,
      puts the value in front at position 0, appends at `len`, and otherwise
      splices it in with both neighbours' links updated. */
  function Insert(st: List, obj: Operand, index: int): (r: Result<List>)
    requires Valid(st)
    ensures !(0 <= ListOps.Resolve(st, index) <= st.len) ==> r == Err(IndexError)
    ensures r.Ok? ==> Valid(r.value) && r.value.len == st.len + 1
  {
    var x := Payload(obj);
    var i := ListOps.Resolve(st, index);
    if i < 0 || i > st.len then Err(IndexError)
    else if i == st.len then Ok(ListOps.Add(st, x))
    else if i == 0 then
      match st.head
      case None => Err(AttributeError)
      case Some(h) => Ok(Prepend(st, x, h))
    else
      match Get(st, i)
      case Err(e) => Err(e)
      case Ok(None) => Err(AttributeError)
      case Ok(Some(o)) =>
        match st.nodes[o].prev
        case None => Err(AttributeError)
        case Some(p) => Ok(SpliceBetween(st, x, p, o))
  }

  /** The `prev` links after splicing record `n` in at position `i`. */
  lemma BackAfterSplice(nodes: seq<Node>, mid: seq<Node>, nodes': seq<Node>, ids: seq<nat>, i: nat, n: nat, x: int)
    requires Backlinked(nodes, ids) && Distinct(ids) && 0 < i < |ids| && n == |nodes|
    requires var grown := nodes + [Node(x, Some(ids[i]), Some(ids[i - 1]))];
             mid == grown[ids[i - 1] := grown[ids[i - 1]].(next := Some(n))]
    requires nodes' == mid[ids[i] := mid[ids[i]].(prev := Some(n))]
    ensures Backlinked(nodes', ids[..i] + [n] + ids[i..])
  {
    var ids' := ids[..i] + [n] + ids[i..];
    forall k | 0 <= k < |ids'|
      ensures ids'[k] < |nodes'| && nodes'[ids'[k]].prev == (if k == 0 then None else Some(ids'[k - 1]))
    {
      if k < i {
        assert ids'[k] == ids[k] && ids[k] != ids[i];
        assert k > 0 ==> ids'[k - 1] == ids[k - 1];
        BackAt(nodes, ids, k);
      } else if k > i + 1 {
        assert ids'[k] == ids[k - 1] && ids[k - 1] != ids[i] && ids'[k - 1] == ids[k - 2];
        BackAt(nodes, ids, k - 1);
      } else if k == i {
        assert ids'[k] == n && ids'[k - 1] == ids[i - 1];
      } else {
        assert ids'[k] == ids[i] && ids'[k - 1] == n;
      }
    }
    assert Backlinked(nodes', ids');
  }

  /** The state `insert` leaves for an interior position. */
  lemma InsertInteriorState(st: List, obj: Operand, index: int)
    requires WellLinked(st) && 0 < ListOps.Resolve(st, index) < st.len
    ensures var ids := Ids(st);
            var i := ListOps.Resolve(st, index);
            Insert(st, obj, index) == Ok(SpliceBetween(st, Payload(obj), ids[i - 1], ids[i]))
  {
    var i := ListOps.Resolve(st, index);
    GetFinds(st, i);
    assert ListOps.Resolve(st, i) == i;
    BackAt(st.nodes, Ids(st), i);
  }

  /** The state an interior splice leaves is doubly linked and holds the
      new value at position `i`. */
  lemma InsertInteriorResult(st: List, x: int, i: nat)
    requires WellLinked(st) && 0 < i < st.len
    ensures var ids := Ids(st);
            var r := SpliceBetween(st, x, ids[i - 1], ids[i]);
            WellLinked(r) && Values(r) == Values(st)[..i] + [x] + Values(st)[i..]
  {
    var ids := Ids(st);
    var o := ids[i];
    var p := ids[i - 1];
    var mid := SpliceForward(st, x, p, o);
    SpliceValues(st, i, Node(x, Some(o), Some(p)), mid);
    var r := SpliceBetween(st, x, p, o);
    BackAfterSplice(st.nodes, mid.nodes, r.nodes, ids, i, |st.nodes|, x);
    Relinked(mid, o, Some(|st.nodes|), r);
  }

  /** Splicing a record in at an interior position updates both neighbours. */
  lemma InsertInteriorKeeps(st: List, obj: Operand, index: int)
    requires WellLinked(st) && 0 < ListOps.Resolve(st, index) < st.len
    ensures Insert(st, obj, index).Ok?
    ensures var i := ListOps.Resolve(st, index);
            && WellLinked(Insert(st, obj, index).value)
            && Values(Insert(st, obj, index).value) == Values(st)[..i] + [Payload(obj)] + Values(st)[i..]
  {
    InsertInteriorState(st, obj, index);
    InsertInteriorResult(st, Payload(obj), ListOps.Resolve(st, index));
  }

  /** `insert` places the value at any position of `[0, len]` and keeps the
      doubly linked invariant; any other position is `IndexError`. */
  lemma InsertKeepsWellLinked(st: List, obj: Operand, index: int)
    requires WellLinked(st)
    ensures Insert(st, obj, index).Ok? <==> 0 <= ListOps.Resolve(st, index) <= st.len
    ensures Insert(st, obj, index).Ok? ==>
              var i := ListOps.Resolve(st, index);
              && WellLinked(Insert(st, obj, index).value)
              && Values(Insert(st, obj, index).value) == Values(st)[..i] + [Payload(obj)] + Values(st)[i..]
  {
    var i := ListOps.Resolve(st, index);
    var x := Payload(obj);
    if i == st.len {
      ListProofs.AddAppends(st, x);
      assert Values(st)[..i] == Values(st) && Values(st)[i..] == [];
    } else if i == 0 && 0 < st.len {
      PrependKeeps(st, x);
      assert Values(st)[..0] == [] && Values(st)[0..] == Values(st);
    } else if 0 < i < st.len {
      InsertInteriorKeeps(st, obj, index);
    }
  }

  /** The window `index` searches: slice bounds resolved as Python resolves
      them, negative ones counting from the end, then clamped to `[0, n]`. */
  function SliceBound(n: nat, b: int): (k: nat)
    ensures k <= n
    ensures 0 <= b <= n ==> k == b
  {
    if b < 0 then (if n + b < 0 then 0 else n + b)
    else if b > n then n
    else b
  }

  /** The first position in `[from, to)` holding `x`, if any. */
  function FirstIn(vs: seq<int>, x: int, from: nat, to: nat): (r: Option<nat>)
    requires to <= |vs|
    ensures r.Some? ==> from <= r.value < to && vs[r.value] == x
    decreases if from < to then to - from else 0
  {
    if from >= to then None
    else if vs[from] == x then Some(from)
    else FirstIn(vs, x, from + 1, to)
  }

  lemma {:induction false} FirstInIsFirst(vs: seq<int>, x: int, from: nat, to: nat)
    requires to <= |vs|
    ensures FirstIn(vs, x, from, to).None? <==> forall k :: from <= k < to ==> vs[k] != x
    ensures FirstIn(vs, x, from, to).Some? ==> (forall k :: from <= k < FirstIn(vs, x, from, to).value ==> vs[k] != x)
    decreases if from < to then to - from else 0
  {
    if from < to && vs[from] != x {
      FirstInIsFirst(vs, x, from + 1, to);
    }
  }

  /** `index(x, start, end)` searching only the window `[start, end)` of the
      values, `end` defaulting to the length. */
  function Index(st: List, x: int, start: int, end: Option<int>): (r: Option<nat>)
    requires Forward(st)
    ensures r.Some? ==> r.value < st.len && Values(st)[r.value] == x
  {
    var vs := Values(st);
    var to := if end.None? then |vs| else SliceBound(|vs|, end.value);
    FirstIn(vs, x, SliceBound(|vs|, start), to)
  }

  /** The corrected `index` answers the first position inside the window
      that holds `x`, and nothing when no position there does. */
  lemma IndexFindsInWindow(st: List, x: int, start: int, end: Option<int>)
    requires Forward(st)
    ensures var vs := Values(st);
            var from := SliceBound(|vs|, start);
            var to := if end.None? then |vs| else SliceBound(|vs|, end.value);
            && (Index(st, x, start, end).None? <==> forall k :: from <= k < to ==> vs[k] != x)
            && (Index(st, x, start, end).Some? ==>
                  var j := Index(st, x, start, end).value;
                  from <= j < to && vs[j] == x && forall k :: from <= k < j ==> vs[k] != x)
  {
    var vs := Values(st);
    var to := if end.None? then |vs| else SliceBound(|vs|, end.value);
    FirstInIsFirst(vs, x, SliceBound(|vs|, start), to);
  }

  /** The list after a `next` call and what that call produced. */
  datatype Advanced = Advanced(list: List, yielded: Result<int>)

  /** `next` returning the value of the record under the cursor. */
  function Next(st: List): (r: Advanced)
    requires Valid(st)
    ensures r.yielded.Err? <==> st.current.None? || st.head.None?
    ensures r.yielded.Err? ==> r == Advanced(st, Err(StopIteration))
    ensures r.yielded.Ok? ==> r.list == st.(current := st.nodes[st.current.value].next)
    ensures Valid(r.list)
    ensures WellLinked(st) ==> WellLinked(r.list)
  {
    if st.current.None? || st.head.None? then Advanced(st, Err(StopIteration))
    else Advanced(st.(current := st.nodes[st.current.value].next), Ok(st.nodes[st.current.value].value))
  }

  /** With the cursor on position `k`, `next` yields the value there and
      moves the cursor to position `k + 1`, or unsets it after the last. */
  lemma NextFollowsChain(st: List, k: nat)
    requires Forward(st) && k < st.len && st.current == Some(Ids(st)[k])
    ensures Next(st).yielded == Ok(Values(st)[k])
    ensures Next(st).list.current == (if k + 1 < st.len then Some(Ids(st)[k + 1]) else None)
    ensures Forward(Next(st).list) && Values(Next(st).list) == Values(st)
    ensures WellLinked(st) ==> WellLinked(Next(st).list)
  {
    var ids := Ids(st);
    if k + 1 < st.len {
      NextAt(st, k);
    }
    var r := Next(st).list;
    assert Shape(r, ids);
    ShapeIsForward(r, ids);
  }
}

=== FILE: list_ops.dfy ===
/** The operations of `DoublyLinkedList` (LinkedList.py) as written, on the
    arena state of ListState. Each one is total on valid states: where the
    source would dereference `None` the result is `AttributeError`. */
module ListOps {
  import opened Outcomes
  import opened Nodes
  import opened Chains
  import opened ListState

  /** A freshly constructed list (LinkedList.py:18-20). */
  function Empty(returnNodes: bool): (st: List)
    ensures WellLinked(st) && Values(st) == []
    ensures st.current.None? && st.returnNodes == returnNodes
  {
    List([], None, None, None, 0, returnNodes)
  }

  /** `add(x)`: a new record whose `prev` is the old `last` becomes `last`;
      it is also `head` when there was none (LinkedList.py:27-35). */
  function Add(st: List, x: int): (r: List)
    requires Valid(st)
    ensures Valid(r)
    ensures r.len == st.len + 1 && r.head.Some? && r.current == st.current && r.returnNodes == st.returnNodes
  {
    var n := |st.nodes|;
    var grown := st.nodes + [Node(x, None, st.last)];
    var linked :=
      if st.last.Some? then grown[st.last.value := grown[st.last.value].(next := Some(n))]
      else grown;
    st.(nodes := linked,
        head := if st.head.None? then Some(n) else st.head,
        last := Some(n),
        len := st.len + 1)
  }

  /** `append` is `add` (LinkedList.py:37-39). */
  function Append(st: List, x: int): (r: List)
    requires Valid(st)
    ensures Valid(r) && r.len == st.len + 1
  {
    Add(st, x)
  }

  /** `extend` with a plain iterable: one `append` per element, in order
      (LinkedList.py:154-156). */
  function Extend(st: List, xs: seq<int>): (r: List)
    requires Valid(st)
    ensures Valid(r)
    ensures r.len == st.len + |xs| && r.current == st.current && r.returnNodes == st.returnNodes
    ensures xs != [] ==> r.head.Some?
    decreases |xs|
  {
    if xs == [] then st else Extend(Append(st, xs[0]), xs[1..])
  }

  /** The constructor with a sequence seed: an empty seed is falsy and adds
      nothing, any other is extended element by element (LinkedList.py:9-23). */
  function FromSeq(xs: seq<int>, returnNodes: bool): (r: List)
    ensures Valid(r) && r.len == |xs| && r.current.None? && r.returnNodes == returnNodes
  {
    if xs == [] then Empty(returnNodes) else Extend(Empty(returnNodes), xs)
  }

  /** The constructor with a scalar seed: zero is falsy and adds nothing; with
      `iterable` set, iterating a scalar is a `TypeError`; otherwise the scalar
      is stored in one record (LinkedList.py:21-25). */
  function FromScalar(v: int, iterable: bool, returnNodes: bool): (r: Result<List>)
    ensures r.Err? <==> v != 0 && iterable
    ensures r.Err? ==> r.error == TypeError
    ensures r.Ok? ==> Valid(r.value) && r.value.len == (if v == 0 then 0 else 1)
    ensures r.Ok? ==> WellLinked(r.value) && Values(r.value) == (if v == 0 then [] else [v])
  {
    if v == 0 then Ok(Empty(returnNodes))
    else if iterable then Err(TypeError)
    else
      var single := Add(Empty(returnNodes), v);
      assert Shape(single, [0]);
      ShapeIsForward(single, [0]);
      Ok(single)
  }

  /** `len(l)` reads the cached count (LinkedList.py:158-160). */
  function Len(st: List): (n: int)
  {
    st.len
  }

  /** `bool(l)` asks whether there is a head (LinkedList.py:316-318). */
  predicate Truthy(st: List)
  {
    st.head.Some?
  }

  /** `clear` drops the head and zeroes the count; `last` and the cursor are
      left as they were (LinkedList.py:84-87). */
  function Clear(st: List): (r: List)
    requires Valid(st)
    ensures Valid(r) && r.len == 0 && !Truthy(r)
    ensures r.nodes == st.nodes && r.last == st.last
    ensures r.current == st.current && r.returnNodes == st.returnNodes
  {
    st.(head := None, len := 0)
  }

  /** The position `get` looks up: a negative index counts from the end. */
  function Resolve(st: List, index: int): (pos: int)
  {
    if index >= 0 then index else st.len + index
  }

  /** `get(index)`: the record at the resolved position. Position `len - 1`
      is answered from `last` before any bounds check; other positions outside
      `[0, len)` raise `IndexError`; the rest walk from `head`
      (LinkedList.py:56-72). */
  function Get(st: List, index: int): (r: Result<Option<nat>>)
    requires Valid(st)
    ensures r.Ok? ==> InArena(st.nodes, r.value)
    ensures r.Err? <==> r == Err(IndexError) || r == Err(AttributeError)
    ensures Resolve(st, index) != st.len - 1 && !(0 <= Resolve(st, index) < st.len) ==> r == Err(IndexError)
  {
    var i := Resolve(st, index);
    if i == st.len - 1 then Ok(st.last)
    else if i < 0 || i > st.len - 1 then Err(IndexError)
    else Nth(st.nodes, st.head, i)
  }

  /** `index(x, start, end)`: `end` defaults to `len`, also when it is 0; the
      bounds only decide whether to search, and the search scans the whole
      list from `head` (LinkedList.py:41-54). */
  function Index(st: List, x: int, start: int, end: Option<int>): (r: Result<Option<nat>>)
    requires Valid(st)
    ensures var e := if end.None? || end.value == 0 then st.len else end.value;
            start > e || start > st.len - 1 || e < 1 ==> r == Ok(None)
  {
    var e := if end.None? || end.value == 0 then st.len else end.value;
    if start > e || start > st.len - 1 || e < 1 then Ok(None)
    else FindFrom(st.nodes, st.head, |st.nodes|, x)
  }

  /** `count(x)`: the records holding `x` along the chain from `head`
      (LinkedList.py:74-82). */
  function Count(st: List, x: int): (r: Result<nat>)
    requires Valid(st)
    ensures r.Err? ==> r.error == NoTermination
  {
    CountFrom(st.nodes, st.head, |st.nodes|, x)
  }

  /** What one step of iteration yields: a value, or the record itself. */
  datatype Elem = ValueElem(value: int) | NodeElem(id: nat)

  /** `iter(l)`: the chain from `head` up to a `None` link, as values or as
      records depending on `returnNodes` (LinkedList.py:193-203). */
  function Iter(st: List): (r: Result<seq<Elem>>)
    requires Valid(st)
    ensures r.Ok? ==> |r.value| <= |st.nodes|
    ensures r.Ok? ==> forall k :: 0 <= k < |r.value| ==> r.value[k].NodeElem? == st.returnNodes
  {
    match Walk(st.nodes, st.head, |st.nodes|)
    case None => Err(NoTermination)
    case Some(ids) =>
      Ok(seq(|ids|, k requires 0 <= k < |ids| =>
        if st.returnNodes then NodeElem(ids[k]) else ValueElem(st.nodes[ids[k]].value)))
  }

  /** A removed value and the list it was removed from. */
  datatype Popped = Popped(list: List, value: int)

  /** `pop(index)`. An empty list raises `IndexError`. No index, `-1` or
      `len - 1` unlink `last` through its `prev`; `0` or `-len` advance
      `head` and the cursor; any other index unlinks the record `get` finds
      through its `prev` (LinkedList.py:98-118). */
  function Pop(st: List, index: Option<int>): (r: Result<Popped>)
    requires Valid(st)
    ensures st.head.None? ==> r == Err(IndexError)
    ensures r.Ok? ==> Valid(r.value.list) && r.value.list.len == st.len - 1
    ensures r.Ok? ==> r.value.list.returnNodes == st.returnNodes
  {
    if st.head.None? then Err(IndexError)
    else if index.None? || index.value == st.len - 1 || index.value == -1 then
      match st.last
      case None => Err(AttributeError)
      case Some(l) =>
        var item := st.nodes[l];
        var unlinked :=
          if item.prev.None? then st.(head := None)
          else st.(nodes := st.nodes[item.prev.value := st.nodes[item.prev.value].(next := None)]);
        Ok(Popped(unlinked.(last := item.prev, len := st.len - 1), item.value))
    else if index.value == 0 || index.value == -st.len then
      var item := st.nodes[st.head.value];
      Ok(Popped(st.(head := item.next, current := item.next, len := st.len - 1), item.value))
    else
      match Get(st, index.value)
      case Err(e) => Err(e)
      case Ok(None) => Err(AttributeError)
      case Ok(Some(o)) =>
        var item := st.nodes[o];
        match item.prev
        case None => Err(AttributeError)
        case Some(p) =>
          Ok(Popped(st.(nodes := st.nodes[p := st.nodes[p].(next := item.next)], len := st.len - 1), item.value))
  }

  /** `insert(obj, index)`. A `Node` argument is unwrapped to its value.
      Index `0` and index `len` both append. Otherwise a new record is
      spliced in front of the one `get` finds: its predecessor's `next` names
      the new record, but the found record's `prev` is not updated, because
      the source assigns an unused `previous` attribute (LinkedList.py:130-144). */
  function Insert(st: List, obj: Operand, index: int): (r: Result<List>)
    requires Valid(st)
    ensures r.Ok? ==> Valid(r.value) && r.value.len == st.len + 1
    ensures index == 0 || index == st.len ==> r == Ok(Add(st, Payload(obj)))
  {
    var x := Payload(obj);
    if index == 0 || index == st.len then Ok(Add(st, x))
    else
      match Get(st, index)
      case Err(e) => Err(e)
      case Ok(None) => Err(AttributeError)
      case Ok(Some(o)) =>
        match st.nodes[o].prev
        case None => Err(AttributeError)
        case Some(p) =>
          var n := |st.nodes|;
          var grown := st.nodes + [Node(x, Some(o), Some(p))];
          Ok(st.(nodes := grown[p := grown[p].(next := Some(n))], len := st.len + 1))
  }

  /** A subscript: an `int`, or anything else. */
  datatype Key = IntKey(i: int) | OtherKey

  /** `l[key] = x`: a non-int key raises `TypeError`; otherwise the value of
      the record `get` finds is overwritten (LinkedList.py:349-353). */
  function SetItem(st: List, key: Key, x: int): (r: Result<List>)
    requires Valid(st)
    ensures key.OtherKey? ==> r == Err(TypeError)
    ensures r.Ok? ==> Valid(r.value) && r.value.len == st.len && r.value.head == st.head && r.value.last == st.last
  {
    match key
    case OtherKey => Err(TypeError)
    case IntKey(i) =>
      match Get(st, i)
      case Err(e) => Err(e)
      case Ok(None) => Err(AttributeError)
      case Ok(Some(o)) => Ok(st.(nodes := st.nodes[o := st.nodes[o].(value := x)]))
  }

  /** `del l[key]`: a non-int key raises `TypeError`; otherwise it is `pop`
      with the value discarded (LinkedList.py:355-359). */
  function DelItem(st: List, key: Key): (r: Result<List>)
    requires Valid(st)
    ensures key.OtherKey? ==> r == Err(TypeError)
    ensures key.IntKey? ==> (r.Ok? <==> Pop(st, Some(key.i)).Ok?)
    ensures r.Ok? ==> Valid(r.value) && r.value.len == st.len - 1
    ensures key.IntKey? && Pop(st, Some(key.i)).Ok? ==> r == Ok(Pop(st, Some(key.i)).value.list)
    ensures key.IntKey? && Pop(st, Some(key.i)).Err? ==> r == Err(Pop(st, Some(key.i)).error)
  {
    match key
    case OtherKey => Err(TypeError)
    case IntKey(i) =>
      match Pop(st, Some(i))
      case Err(e) => Err(e)
      case Ok(popped) => Ok(popped.list)
  }

  /** The list after a `next` call and the exception that call raised. */
  datatype Stepped = Stepped(list: List, raised: Error)

  /** `next(l)`: with no cursor or no head it raises `StopIteration` and
      changes nothing. Otherwise it advances the cursor and then reads an
      attribute records do not have, raising `AttributeError`
      (LinkedList.py:367-374). */
  function Next(st: List): (r: Stepped)
    requires Valid(st)
    ensures r.raised == StopIteration <==> st.current.None? || st.head.None?
    ensures r.raised == StopIteration ==> r.list == st
    ensures r.raised != StopIteration ==> r.raised == AttributeError && r.list.current == st.nodes[st.current.value].next
    ensures r.raised != StopIteration ==> r.list == st.(current := st.nodes[st.current.value].next)
    ensures Valid(r.list)
  {
    if st.current.None? || st.head.None? then Stepped(st, StopIteration)
    else Stepped(st.(current := st.nodes[st.current.value].next), AttributeError)
  }
}

=== FILE: list_proofs.dfy ===
/** What the operations of ListOps do to the values a list holds, which of
    them keep the forward chain or the full doubly linked invariant, and where
    the backward links written by the source go wrong. */
module ListProofs {
  import opened Outcomes
  import opened Nodes
  import opened Chains
  import opened ListState
  import opened ListOps
  import opened ChainEdits

  /** On a list whose forward links agree, the traversal loops visit exactly
      the chain. */
  lemma WalkIsChain(st: List)
    requires Forward(st)
    ensures Walk(st.nodes, st.head, |st.nodes|) == Some(Ids(st))
  {
    var ids := Ids(st);
    if |ids| > 0 {
      ChainFitsArena(st);
      WalkOfChain(st.nodes, ids, |st.nodes|);
    }
  }

  /** Two linked runs from the same record agree as far as both go. */
  lemma {:induction false} LinkedRunsAgree(nodes: seq<Node>, a: seq<nat>, b: seq<nat>, k: nat)
    requires Linked(nodes, a) && Linked(nodes, b)
    requires |a| > 0 && |b| > 0 && a[0] == b[0]
    requires k < |a| && k < |b|
    ensures a[k] == b[k]
    decreases k
  {
    if k > 0 {
      LinkedRunsAgree(nodes, a, b, k - 1);
      assert nodes[a[k - 1]].next == Some(a[k]);
      assert nodes[b[k - 1]].next == Some(b[k]);
    }
  }

  /** The forward chain after `add(x)` is the old one and the new record. */
  lemma AddExtendsChain(st: List, x: int)
    requires Forward(st)
    ensures Forward(Add(st, x)) && Ids(Add(st, x)) == Ids(st) + [|st.nodes|]
  {
    var r := Add(st, x);
    var ids := Ids(st);
    var n := |st.nodes|;
    var ids' := ids + [n];
    assert |r.nodes| == n + 1;
    assert forall j :: 0 <= j < n && Some(j) != st.last ==> r.nodes[j] == st.nodes[j];
    assert forall k :: 0 <= k < |ids'| ==> ids'[k] < |r.nodes|;
    forall k | 0 <= k < |ids'| - 1
      ensures r.nodes[ids'[k]].next == Some(ids'[k + 1])
    {
      if k < |ids| - 1 {
        assert ids[k] != ids[|ids| - 1];
      }
    }
    assert Distinct(ids');
    assert Shape(r, ids');
    ShapeIsForward(r, ids');
  }

  /** `add(x)` appends `x`: the new record joins the chain as `last`, its
      `prev` naming the old `last`, and the full invariant is kept. */
  lemma AddAppends(st: List, x: int)
    requires Forward(st)
    ensures Forward(Add(st, x))
    ensures Ids(Add(st, x)) == Ids(st) + [|st.nodes|]
    ensures Values(Add(st, x)) == Values(st) + [x]
    ensures Add(st, x).last == Some(|st.nodes|) && Add(st, x).nodes[|st.nodes|].prev == st.last
    ensures WellLinked(st) ==> WellLinked(Add(st, x))
  {
    var r := Add(st, x);
    var ids := Ids(st);
    var n := |st.nodes|;
    var ids' := ids + [n];
    AddExtendsChain(st, x);
    assert forall j :: 0 <= j < n ==> r.nodes[j].value == st.nodes[j].value && r.nodes[j].prev == st.nodes[j].prev;
    assert r.nodes[n] == Node(x, None, st.last);
    assert Values(r) == Values(st) + [x];
    if WellLinked(st) {
      forall k | 0 <= k < |ids'|
        ensures ids'[k] < |r.nodes| && r.nodes[ids'[k]].prev == (if k == 0 then None else Some(ids'[k - 1]))
      {
        if k < |ids| {
          BackAt(st.nodes, ids, k);
        }
      }
      assert Backlinked(r.nodes, ids');
    }
  }

  lemma AppendThenConcat(a: seq<int>, b: seq<int>, c: seq<int>, xs: seq<int>)
    requires |xs| > 0 && a == b + xs[1..] && b == c + [xs[0]]
    ensures a == c + xs
  {
    assert [xs[0]] + xs[1..] == xs;
  }

  /** `extend` with a plain sequence appends its elements in order and keeps
      the full invariant. */
  lemma {:induction false} ExtendAppends(st: List, xs: seq<int>)
    requires Forward(st)
    ensures Forward(Extend(st, xs))
    ensures Values(Extend(st, xs)) == Values(st) + xs
    ensures WellLinked(st) ==> WellLinked(Extend(st, xs))
    decreases |xs|
  {
    if xs == [] {
      assert Extend(st, xs) == st;
      assert Values(st) + xs == Values(st);
    } else {
      var next := Add(st, xs[0]);
      AddAppends(st, xs[0]);
      ExtendAppends(next, xs[1..]);
      var r := Extend(next, xs[1..]);
      assert Extend(st, xs) == r;
      AppendThenConcat(Values(r), Values(next), Values(st), xs);
    }
  }

  /** A list built from a sequence holds exactly that sequence, is doubly
      linked, and its cursor is unset, so `next` stops at once. */
  lemma FromSeqBuilds(xs: seq<int>, returnNodes: bool)
    ensures WellLinked(FromSeq(xs, returnNodes))
    ensures Values(FromSeq(xs, returnNodes)) == xs
    ensures Next(FromSeq(xs, returnNodes)).raised == StopIteration
  {
    ExtendAppends(Empty(returnNodes), xs);
  }

  /** `len` is the number of values and `bool` says whether there is one. */
  lemma LenAndTruthiness(st: List)
    requires Forward(st)
    ensures Len(st) == |Values(st)|
    ensures Truthy(st) <==> Values(st) != []
  {
  }

  /** `get` on a list whose forward links agree: an index resolving inside
      `[0, len)` finds that record; on an empty list `-1` finds no record
      instead of raising; every other index raises `IndexError`. */
  lemma GetFinds(st: List, index: int)
    requires Forward(st)
    ensures 0 <= Resolve(st, index) < st.len ==> Get(st, index) == Ok(Some(Ids(st)[Resolve(st, index)]))
    ensures st.len == 0 && index == -1 ==> Get(st, index) == Ok(None)
    ensures !(0 <= Resolve(st, index) < st.len) && !(st.len == 0 && index == -1) ==>
              Get(st, index) == Err(IndexError)
  {
    var i := Resolve(st, index);
    if 0 <= i < st.len - 1 {
      NthOfLinked(st.nodes, Ids(st), i);
    }
  }

  /** `index` on a list whose forward links agree: the gate on `start` and
      `end` answers None; past it, the answer is the first position of `x`
      in the whole list, wherever `start` and `end` point. */
  lemma IndexSearches(st: List, x: int, start: int, end: Option<int>)
    requires Forward(st)
    ensures var e := if end.None? || end.value == 0 then st.len else end.value;
            var r := Index(st, x, start, end);
            if start > e || start > st.len - 1 || e < 1 then r == Ok(None)
            else r.Ok? && IsFirstIndex(Values(st), x, r.value)
  {
    WalkIsChain(st);
    FindFromFinds(st.nodes, st.head, |st.nodes|, x);
  }

  /** The scan ignores `start`: a match at the front is reported even when
      `start` lies past it. */
  lemma IndexIgnoresStart(st: List, start: int)
    requires Forward(st) && 0 < start < st.len
    ensures Index(st, Values(st)[0], start, None) == Ok(Some(0))
  {
    IndexSearches(st, Values(st)[0], start, None);
  }

  /** `count(x)` is the number of positions holding `x`. */
  lemma CountOccurrences(st: List, x: int)
    requires Forward(st)
    ensures Count(st, x) == Ok(multiset(Values(st))[x])
  {
    WalkIsChain(st);
    CountFromCounts(st.nodes, st.head, |st.nodes|, x);
  }

  /** Iteration yields the values front to back, or the records themselves
      when the list was built to return nodes. */
  lemma IterYields(st: List)
    requires Forward(st)
    ensures Iter(st).Ok? && |Iter(st).value| == st.len
    ensures forall k :: 0 <= k < st.len ==>
              Iter(st).value[k] == (if st.returnNodes then NodeElem(Ids(st)[k]) else ValueElem(Values(st)[k]))
  {
    WalkIsChain(st);
  }

  /** A list whose `head` starts a chain that ends before `len` records is
      not forward-consistent. */
  lemma ShortChainNotForward(st: List, pre: seq<nat>)
    requires Valid(st) && 0 < |pre| < st.len && Linked(st.nodes, pre)
    requires st.head == Some(pre[0]) && st.nodes[pre[|pre| - 1]].next.None?
    ensures !Forward(st)
  {
    if Forward(st) {
      var ids := Ids(st);
      var k := |pre| - 1;
      assert st.nodes[ids[k]].next == Some(ids[k + 1]);
      LinkedRunsAgree(st.nodes, ids, pre, k);
      assert false;
    }
  }

  /** `pop()` unlinks `last` through whatever its `prev` names. */
  lemma PopLastThroughPrev(st: List, q: nat)
    requires Valid(st) && st.head.Some? && st.last.Some?
    requires st.nodes[st.last.value].prev == Some(q)
    ensures Pop(st, None) ==
              Ok(Popped(st.(nodes := st.nodes[q := st.nodes[q].(next := None)], last := Some(q), len := st.len - 1),
                        st.nodes[st.last.value].value))
  {
  }

  /** `pop` on an empty list raises `IndexError`, whatever the index. */
  lemma PopEmpty(st: List, index: Option<int>)
    requires Forward(st) && st.len == 0
    ensures Pop(st, index) == Err(IndexError)
  {
  }

  /** `pop()`, `pop(-1)` and `pop(len - 1)` remove and return the last value;
      the head goes only with the sole record, and the full invariant is kept. */
  lemma PopLast(st: List, index: Option<int>)
    requires WellLinked(st) && st.len > 0
    requires index.None? || index == Some(st.len - 1) || index == Some(-1)
    ensures Pop(st, index).Ok?
    ensures Pop(st, index).value.value == Values(st)[st.len - 1]
    ensures WellLinked(Pop(st, index).value.list)
    ensures Values(Pop(st, index).value.list) == Values(st)[..st.len - 1]
    ensures Pop(st, index).value.list.head.None? <==> st.len == 1
  {
    var ids := Ids(st);
    var L := st.len;
    BackAt(st.nodes, Ids(st), L - 1);
    var r := Pop(st, index).value.list;
    if L == 1 {
      assert r == st.(head := None, last := None, len := 0);
      assert Shape(r, []);
      ShapeIsForward(r, []);
    } else {
      var p := ids[L - 2];
      assert r == st.(nodes := st.nodes[p := st.nodes[p].(next := None)], last := Some(p), len := L - 1);
      DropLast(st, r);
    }
    assert Values(r) == Values(st)[..L - 1];
  }

  /** `pop(0)` and `pop(-len)` on a list of two or more remove and return the
      first value, moving `head` and the cursor to the second record. Only
      forward links are read, so the forward chain suffices. */
  lemma PopFirst(st: List, index: Option<int>)
    requires Forward(st) && st.len >= 2
    requires index == Some(0) || index == Some(-st.len)
    ensures Pop(st, index).Ok?
    ensures Pop(st, index).value.value == Values(st)[0]
    ensures Forward(Pop(st, index).value.list)
    ensures Values(Pop(st, index).value.list) == Values(st)[1..]
    ensures Pop(st, index).value.list.head == Some(Ids(st)[1])
    ensures Pop(st, index).value.list.current == Pop(st, index).value.list.head
  {
    var ids := Ids(st);
    NextAt(st, 0);
    var r := st.(head := Some(ids[1]), current := Some(ids[1]), len := st.len - 1);
    assert Pop(st, index) == Ok(Popped(r, Values(st)[0]));
    DropFirst(st, r);
    assert Values(r) == Values(st)[1..];
  }

  /** The new head keeps its `prev` naming the removed record, so a doubly
      linked list of two or more stops being one after `pop(0)`. */
  lemma PopFirstBreaksBacklinks(st: List, index: Option<int>)
    requires WellLinked(st) && st.len >= 2
    requires index == Some(0) || index == Some(-st.len)
    ensures Pop(st, index).Ok? && !WellLinked(Pop(st, index).value.list)
  {
    PopFirst(st, index);
    BackAt(st.nodes, Ids(st), 1);
    var r := Pop(st, index).value.list;
    DropFirst(st, r);
    assert r.nodes[Ids(r)[0]].prev == Some(Ids(st)[0]);
    BrokenPrev(r, 0);
  }

  /** The state `pop` leaves for an interior index: the predecessor's
      `next` names the successor, and nothing else is written. */
  lemma PopInteriorState(st: List, index: int)
    requires WellLinked(st) && 0 < Resolve(st, index) < st.len - 1
    ensures var ids := Ids(st);
            var i := Resolve(st, index);
            var p := ids[i - 1];
            Pop(st, Some(index)) ==
              Ok(Popped(st.(nodes := st.nodes[p := st.nodes[p].(next := Some(ids[i + 1]))], len := st.len - 1),
                        st.nodes[ids[i]].value))
  {
    var ids := Ids(st);
    var i := Resolve(st, index);
    GetFinds(st, index);
    BackAt(st.nodes, Ids(st), i);
    NextAt(st, i);
    assert index != st.len - 1 && index != -1 && index != 0 && index != -st.len;
  }

  /** `pop(i)` for an index resolving strictly between the first and the last
      position removes and returns that value, splicing its predecessor to its
      successor; the successor's `prev` still names the removed record. */
  lemma PopInterior(st: List, index: int)
    requires WellLinked(st) && 0 < Resolve(st, index) < st.len - 1
    ensures Pop(st, Some(index)).Ok?
    ensures Pop(st, Some(index)).value.value == Values(st)[Resolve(st, index)]
    ensures Forward(Pop(st, Some(index)).value.list)
    ensures Values(Pop(st, Some(index)).value.list) ==
              Values(st)[..Resolve(st, index)] + Values(st)[Resolve(st, index) + 1..]
    ensures Ids(Pop(st, Some(index)).value.list) ==
              Ids(st)[..Resolve(st, index)] + Ids(st)[Resolve(st, index) + 1..]
    ensures var successor := Ids(st)[Resolve(st, index) + 1];
            Pop(st, Some(index)).value.list.nodes[successor].prev == Some(Ids(st)[Resolve(st, index)])
  {
    var ids := Ids(st);
    var i := Resolve(st, index);
    PopInteriorState(st, index);
    BackAt(st.nodes, Ids(st), i + 1);
    var r := Pop(st, Some(index)).value.list;
    Bypass(st, i, r);
    assert Values(r) == Values(st)[..i] + Values(st)[i + 1..];
  }

  /** The successor of an interior record keeps its `prev` naming the removed
      record, so `pop` of an interior index breaks the doubly linked invariant. */
  lemma PopInteriorBreaksBacklinks(st: List, index: int)
    requires WellLinked(st) && 0 < Resolve(st, index) < st.len - 1
    ensures Pop(st, Some(index)).Ok? && !WellLinked(Pop(st, Some(index)).value.list)
  {
    PopInterior(st, index);
    var i := Resolve(st, index);
    var ids := Ids(st);
    var r := Pop(st, Some(index)).value.list;
    var ids' := Ids(r);
    assert ids'[i] == ids[i + 1] && ids'[i - 1] == ids[i - 1];
    assert r.nodes[ids'[i]].prev == Some(ids[i]);
    BrokenPrev(r, i);
  }

  /** `pop(i)` with an index resolving outside `[0, len)` raises `IndexError`. */
  lemma PopOutOfRange(st: List, index: int)
    requires Forward(st) && st.len > 0 && !(0 <= Resolve(st, index) < st.len)
    ensures Pop(st, Some(index)) == Err(IndexError)
  {
    GetFinds(st, index);
  }

  /** `insert(obj, 0)` and `insert(obj, len)` both append the unwrapped value. */
  lemma InsertAppends(st: List, obj: Operand, index: int)
    requires Forward(st) && (index == 0 || index == st.len)
    ensures Insert(st, obj, index).Ok?
    ensures Forward(Insert(st, obj, index).value)
    ensures Values(Insert(st, obj, index).value) == Values(st) + [Payload(obj)]
    ensures WellLinked(st) ==> WellLinked(Insert(st, obj, index).value)
  {
    AddAppends(st, Payload(obj));
  }

  /** Index 0 does not put the value in front: on a non-empty list whose
      first value differs, the result is not the value followed by the list. */
  lemma InsertAtZeroAppends(st: List, obj: Operand)
    requires Forward(st) && st.len > 0 && Values(st)[0] != Payload(obj)
    ensures Insert(st, obj, 0).Ok? && Forward(Insert(st, obj, 0).value)
    ensures Values(Insert(st, obj, 0).value)[0] == Values(st)[0]
    ensures Values(Insert(st, obj, 0).value) != [Payload(obj)] + Values(st)
  {
    InsertAppends(st, obj, 0);
  }

  /** The state `insert` leaves for an index resolving inside `(0, len)`: a
      new record in front of the found one, named by its predecessor's `next`. */
  lemma InsertInteriorState(st: List, obj: Operand, index: int)
    requires WellLinked(st) && 0 < Resolve(st, index) < st.len
    ensures var ids := Ids(st);
            var i := Resolve(st, index);
            var n := |st.nodes|;
            var grown := st.nodes + [Node(Payload(obj), Some(ids[i]), Some(ids[i - 1]))];
            Insert(st, obj, index) ==
              Ok(st.(nodes := grown[ids[i - 1] := grown[ids[i - 1]].(next := Some(n))], len := st.len + 1))
  {
    var i := Resolve(st, index);
    GetFinds(st, index);
    BackAt(st.nodes, Ids(st), i);
    assert index != 0 && index != st.len;
  }

  /** `insert(obj, i)` for an index resolving inside `(0, len)` places the
      unwrapped value at position `i` of the forward chain, but the record
      it now precedes keeps its old `prev`. */
  lemma InsertSplices(st: List, obj: Operand, index: int)
    requires WellLinked(st) && 0 < Resolve(st, index) < st.len
    ensures Insert(st, obj, index).Ok?
    ensures Forward(Insert(st, obj, index).value)
    ensures var i := Resolve(st, index);
            Values(Insert(st, obj, index).value) == Values(st)[..i] + [Payload(obj)] + Values(st)[i..]
    ensures var i := Resolve(st, index);
            Ids(Insert(st, obj, index).value) == Ids(st)[..i] + [|st.nodes|] + Ids(st)[i..]
    ensures var i := Resolve(st, index);
            Insert(st, obj, index).value.nodes[Ids(st)[i]].prev == Some(Ids(st)[i - 1])
  {
    var ids := Ids(st);
    var i := Resolve(st, index);
    InsertInteriorState(st, obj, index);
    BackAt(st.nodes, Ids(st), i);
    var r := Insert(st, obj, index).value;
    Splice(st, i, Node(Payload(obj), Some(ids[i]), Some(ids[i - 1])), r);
    assert Values(r) == Values(st)[..i] + [Payload(obj)] + Values(st)[i..];
  }

  /** Because the found record's `prev` is not updated, an interior `insert`
      breaks the doubly linked invariant. */
  lemma InsertBreaksBacklinks(st: List, obj: Operand, index: int)
    requires WellLinked(st) && 0 < Resolve(st, index) < st.len
    ensures Insert(st, obj, index).Ok? && !WellLinked(Insert(st, obj, index).value)
  {
    InsertSplices(st, obj, index);
    var i := Resolve(st, index);
    var ids := Ids(st);
    var r := Insert(st, obj, index).value;
    assert Ids(r)[i + 1] == ids[i] && Ids(r)[i] == |st.nodes|;
    assert ids[i - 1] < |st.nodes|;
    BrokenPrev(r, i + 1);
  }

  /** Inserting at the front by a negative index dereferences the head's
      absent `prev`; on an empty list `-1` dereferences the absent `last`. */
  lemma InsertAtFrontRaises(st: List, obj: Operand, index: int)
    requires WellLinked(st)
    requires (st.len > 0 && index == -st.len) || (st.len == 0 && index == -1)
    ensures Insert(st, obj, index) == Err(AttributeError)
  {
    GetFinds(st, index);
    if st.len > 0 {
      BackAt(st.nodes, Ids(st), 0);
    }
  }

  /** Any other index resolving outside `[0, len]` raises `IndexError`. */
  lemma InsertOutOfRange(st: List, obj: Operand, index: int)
    requires Forward(st)
    requires Resolve(st, index) < 0 || Resolve(st, index) > st.len
    requires !(st.len == 0 && index == -1)
    ensures Insert(st, obj, index) == Err(IndexError)
  {
    GetFinds(st, index);
  }

  /** `del l[i]` removes exactly the value at the resolved position, as
      `pop(i)` does, and leaves the chain in agreement with `len`. */
  lemma DelItemRemoves(st: List, index: int)
    requires WellLinked(st) && 0 <= Resolve(st, index) < st.len
    ensures DelItem(st, IntKey(index)).Ok?
    ensures Forward(DelItem(st, IntKey(index)).value)
    ensures Values(DelItem(st, IntKey(index)).value) ==
              Values(st)[..Resolve(st, index)] + Values(st)[Resolve(st, index) + 1..]
  {
    var i := Resolve(st, index);
    var s := Values(st);
    if i == st.len - 1 {
      PopLast(st, Some(index));
      assert s[i + 1..] == [];
    } else if i == 0 {
      PopFirst(st, Some(index));
      assert s[..0] == [];
    } else {
      PopInterior(st, index);
    }
  }

  /** `l[i] = x` for an index resolving inside `[0, len)` changes only the
      value at that position, keeping both invariants. */
  lemma SetItemWrites(st: List, index: int, x: int)
    requires Forward(st) && 0 <= Resolve(st, index) < st.len
    ensures SetItem(st, IntKey(index), x).Ok?
    ensures Forward(SetItem(st, IntKey(index), x).value)
    ensures Values(SetItem(st, IntKey(index), x).value) == Values(st)[Resolve(st, index) := x]
    ensures WellLinked(st) ==> WellLinked(SetItem(st, IntKey(index), x).value)
  {
    var ids := Ids(st);
    var i := Resolve(st, index);
    GetFinds(st, index);
    var r := SetItem(st, IntKey(index), x).value;
    SetValue(st, ids[i], x, r);
    assert Values(r) == Values(st)[i := x];
  }

  /** `l[i] = x` out of range raises like `get`: `IndexError`, except `-1`
      on an empty list, which finds no record and fails on it. */
  lemma SetItemOutOfRange(st: List, index: int, x: int)
    requires Forward(st) && !(0 <= Resolve(st, index) < st.len)
    ensures st.len == 0 && index == -1 ==> SetItem(st, IntKey(index), x) == Err(AttributeError)
    ensures !(st.len == 0 && index == -1) ==> SetItem(st, IntKey(index), x) == Err(IndexError)
  {
    GetFinds(st, index);
  }

  /** After `clear` the stale `last` survives: `add` links the new record
      behind it, and `pop` then cuts that link and makes the stale record
      `last` again, leaving a truthy list of length 0. */
  lemma ClearAddPopLeavesHead(st: List, x: int)
    requires WellLinked(st) && st.len > 0
    ensures !Forward(Clear(st))
    ensures Pop(Add(Clear(st), x), None).Ok?
    ensures var after := Pop(Add(Clear(st), x), None).value.list;
            Truthy(after) && Len(after) == 0 && !Forward(after)
  {
  }

  /** `get(-1)` after `clear` returns the stale `last` record instead of
      raising. */
  lemma GetAfterClearFindsDetached(st: List)
    requires WellLinked(st) && st.len > 0
    ensures Get(Clear(st), -1) == Ok(Some(Ids(st)[st.len - 1]))
  {
  }

  /** `pop()` on a list whose last record's `prev` names position `m - 1`
      rather than its real predecessor cuts the chain after position `m - 1`:
      the records in between drop out of the forward chain, while `len` only
      goes down by one. */
  lemma PopThroughStalePrev(st: List, m: nat)
    requires Forward(st) && 0 < m < st.len - 1
    requires st.nodes[Ids(st)[st.len - 1]].prev == Some(Ids(st)[m - 1])
    ensures Pop(st, None).Ok?
    ensures var after := Pop(st, None).value.list;
            && Len(after) == st.len - 1
            && !Forward(after)
            && Walk(after.nodes, after.head, |after.nodes|) == Some(Ids(st)[..m])
  {
    var ids := Ids(st);
    var q := ids[m - 1];
    PopLastThroughPrev(st, q);
    var after := Pop(st, None).value.list;
    assert after == st.(nodes := st.nodes[q := st.nodes[q].(next := None)], last := Some(q), len := st.len - 1);
    var pre := ids[..m];
    CutAfter(st.nodes, ids, m, after.nodes);
    ShortChainNotForward(after, pre);
    ChainFitsArena(st);
    WalkOfChain(after.nodes, pre, |after.nodes|);
  }

  /** Inserting in front of the last record and then popping the last loses
      the inserted value: `pop` follows the stale `prev` of the last record,
      so the chain ends one record early while `len` still counts it. */
  lemma InsertThenPopDropsValue(st: List, obj: Operand)
    requires WellLinked(st) && st.len >= 2
    ensures Insert(st, obj, st.len - 1).Ok?
    ensures Pop(Insert(st, obj, st.len - 1).value, None).Ok?
    ensures var after := Pop(Insert(st, obj, st.len - 1).value, None).value.list;
            && Len(after) == st.len
            && !Forward(after)
            && Walk(after.nodes, after.head, |after.nodes|) == Some(Ids(st)[..st.len - 1])
  {
    var ids := Ids(st);
    var L := st.len;
    InsertSplices(st, obj, L - 1);
    var r1 := Insert(st, obj, L - 1).value;
    var ids1 := Ids(r1);
    assert ids1 == ids[..L - 1] + [|st.nodes|] + ids[L - 1..];
    assert ids1[L] == ids[L - 1] && ids1[L - 2] == ids[L - 2];
    PopThroughStalePrev(r1, L - 1);
    assert ids1[..L - 1] == ids[..L - 1];
  }


  /** After `pop(0)` the cursor names the new head, yet `next` raises
      instead of yielding that record's value. */
  lemma NextAfterPopFirstRaises(st: List)
    requires Forward(st) && st.len >= 2
    ensures Pop(st, Some(0)).Ok?
    ensures var after := Pop(st, Some(0)).value.list;
            && after.current == Some(Ids(st)[1])
            && Next(after).raised == AttributeError
  {
    PopFirst(st, Some(0));
  }
}

=== FILE: list_state.dfy ===
/** The state of a `DoublyLinkedList` (LinkedList.py:18-20) over an arena of
    node records, and the invariants that relate it to a sequence of values. */
module ListState {
  import opened Outcomes
  import opened Nodes
  import opened Chains

  /** `nodes` is every record the list ever created, addressed by position;
      `head`, `last` and the cursor `current` name records or are absent;
      `len` is the cached length, an `int` because nothing in the source stops
      it from going below zero. */
  datatype List = List(
    nodes: seq<Node>,
    head: Option<nat>,
    last: Option<nat>,
    current: Option<nat>,
    len: int,
    returnNodes: bool)

  /** Every reference held by the list or its records names a record. */
  predicate Valid(st: List)
  {
    && Closed(st.nodes)
    && InArena(st.nodes, st.head)
    && InArena(st.nodes, st.last)
    && InArena(st.nodes, st.current)
  }

  /** `ids` is the forward chain of the list: `len` distinct records linked by
      `next` from `head`, the final one being `last` with no successor. */
  predicate Shape(st: List, ids: seq<nat>)
  {
    && st.len == |ids|
    && Linked(st.nodes, ids)
    && Distinct(ids)
    && if |ids| == 0 then st.head.None? && st.last.None?
       else && st.head == Some(ids[0])
            && st.last == Some(ids[|ids| - 1])
            && st.nodes[ids[|ids| - 1]].next.None?
  }

  /** The forward links, `last` and `len` agree: walking `len` steps from
      `head` gives the chain. Backward links are not consulted. */
  predicate Forward(st: List)
  {
    && Valid(st)
    && st.len >= 0
    && Follow(st.nodes, st.head, st.len).Some?
    && Shape(st, Follow(st.nodes, st.head, st.len).value)
  }

  /** The chain of a list whose forward links agree. */
  function Ids(st: List): (ids: seq<nat>)
    requires Forward(st)
    ensures Shape(st, ids)
  {
    Follow(st.nodes, st.head, st.len).value
  }

  /** The values the list holds, front to back. */
  function Values(st: List): (vs: seq<int>)
    requires Forward(st)
    ensures |vs| == st.len
  {
    ValuesOf(st.nodes, Ids(st))
  }

  /** Each record's `prev` names its predecessor in `ids`, the first none. */
  predicate Backlinked(nodes: seq<Node>, ids: seq<nat>)
  {
    forall k :: 0 <= k < |ids| ==>
      ids[k] < |nodes| && nodes[ids[k]].prev == (if k == 0 then None else Some(ids[k - 1]))
  }

  /** The full doubly linked invariant: forward chain and mirrored `prev`. */
  predicate WellLinked(st: List)
  {
    Forward(st) && Backlinked(st.nodes, Ids(st))
  }

  /** Any chain with the right shape is the list's chain. */
  lemma ShapeIsForward(st: List, ids: seq<nat>)
    requires Valid(st) && Shape(st, ids)
    ensures Forward(st) && Ids(st) == ids
  {
    if |ids| > 0 {
      FollowOfLinked(st.nodes, ids);
    }
  }

  /** A chain visits no more records than the arena holds. */
  lemma ChainFitsArena(st: List)
    requires Forward(st)
    ensures |Ids(st)| <= |st.nodes|
  {
    DistinctBounded(Ids(st), |st.nodes|);
  }
}

=== FILE: nodes.dfy ===
/** The `Node` record of Node.py and its value-based ordering. */
module Nodes {
  import opened Outcomes

  /** One record of a chain. The fields are in the constructor's positional
      order (value, next, prev); links are positions in the owning list's arena. */
  datatype Node = Node(value: int, next: Option<nat>, prev: Option<nat>)

  /** The right-hand side of a node comparison: another node or a bare value. */
  datatype Operand = NodeArg(node: Node) | ValueArg(v: int)

  /** The value an operand stands for: a node is unwrapped to its payload. */
  function Payload(o: Operand): (p: int)
  {
    match o
    case NodeArg(m) => m.value
    case ValueArg(v) => v
  }

  /** `n < o`: a node compares against another node by both values, and
      against a bare value directly. */
  predicate Less(n: Node, o: Operand)
  {
    match o
    case NodeArg(m) => n.value < m.value
    case ValueArg(v) => n.value < v
  }

  /** `n > o`, by the same unwrapping rule. */
  predicate Greater(n: Node, o: Operand)
  {
    match o
    case NodeArg(m) => n.value > m.value
    case ValueArg(v) => n.value > v
  }

  /** Comparing with a node is comparing with its payload. */
  lemma CompareUnwrapsOperand(n: Node, o: Operand)
    ensures Less(n, o) <==> n.value < Payload(o)
    ensures Greater(n, o) <==> n.value > Payload(o)
  {
  }

  /** `n < m` holds exactly when `m > n` does. */
  lemma LessIsConverseOfGreater(n: Node, m: Node)
    ensures Less(n, NodeArg(m)) <==> Greater(m, NodeArg(n))
  {
  }

  /** Comparisons read only the payload: relinking a node changes no answer. */
  lemma CompareIgnoresLinks(n: Node, o: Operand, next: Option<nat>, prev: Option<nat>)
    ensures Less(n.(next := next, prev := prev), o) == Less(n, o)
    ensures Greater(n.(next := next, prev := prev), o) == Greater(n, o)
  {
  }

  /** Between nodes, `<` is a strict order. */
  lemma LessIsStrictOrder(a: Node, b: Node, c: Node)
    ensures !Less(a, NodeArg(a))
    ensures Less(a, NodeArg(b)) && Less(b, NodeArg(c)) ==> Less(a, NodeArg(c))
    ensures Less(a, NodeArg(b)) ==> !Less(b, NodeArg(a))
  {
  }
}

=== FILE: outcomes.dfy ===
/** Optional values, the exceptions the list raises, and results that carry either. */
module Outcomes {

  /** A reference that may be absent: Python's `None` or an arena position. */
  datatype Option<+T> = None | Some(value: T)

  /** The exceptions a list operation can end in. `NoTermination` stands for a
      scan that follows `next` around a cycle and never returns. */
  datatype Error =
    | IndexError
    | TypeError
    | StopIteration
    | AttributeError
    | NoTermination

  /** The outcome of an operation: a value, or the exception it raised. */
  datatype Result<+T> = Ok(value: T) | Err(error: Error)
}
